=== FILE: README.md ===
# Pepper front-end logic, modelled in Dafny

Pepper is a React front-end for a resume-curation service. A user logs in
with a PIN and pastes a job post, which is parsed into a JSON job record.
The user then picks or uploads a `.docx` resume and asks for a curation.
The curation runs as a pipeline of four agents (feedback, recruiter view,
coach, tailor), with a human approval step before the last agent. This
project models the deterministic logic inside the front-end as pure
functions over immutable records, with service replies passed in as
inputs:

- the API helpers: base URL, file-name truncation, response classification;
- the request payloads and validation of the request service;
- the curation-pipeline view model of the request dashboard: stage
  decoding, readiness, progress, checkpoints, the approval edit buffer,
  approval, instruction display, task names, status badges, paging and
  row expansion;
- job post-processing: relative post dates, date formatting, the referral
  default, key order, and the parse flow;
- the form state machines of the resume centre, the JSON editor, the
  upload dialog and the login page.

JSON values are a datatype whose objects are ordered key/value sequences,
so key order is part of every statement. `JSON.parse` and `JSON.stringify`
are function parameters (`Parser`, `Printer`): no concrete parser is
modelled. Calendar arithmetic is a pair of abstract functions
(`Calendar`). JavaScript truthiness, `String()`, `trim`, `toLowerCase`,
`parseInt` and `Number` are written out in modules `JsonValues` and `Text`.

Modules: `Wrappers`, `Text`, `JsonValues`, `Files`, `ApiUtils`,
`RequestService`, `Pipeline`, `Instructions`, `RequestList`, `JobPost`,
`ResumeCenter`, `JsonEditor`, `UploadModal`, `Login`.

## Model

| member | source | states |
|---|---|---|
| ApiUtils.BaseUrl | services/apiUtils.ts:2 | The result is the input with exactly one trailing `/` removed when present, and the input itself otherwise. |
| ApiUtils.BaseUrlDropsOnlyOneSlash | services/apiUtils.ts:2 | Of two trailing slashes, one survives. |
| ApiUtils.TrailingSlashIrrelevant | services/apiUtils.ts:1-2 | An address configured with or without one trailing slash gives the same base, so every endpoint is the same. |
| ApiUtils.StripDocx | services/apiUtils.ts:59-62 | A trailing `.docx` in any letter case is cut off (the result is a prefix five shorter); a name without it is kept. |
| ApiUtils.TruncateFileName | services/apiUtils.ts:55-71 | The result ends in `.docx`; what precedes it is a prefix of the trimmed name without its own extension. When `maxLength >= 5` the length is that base plus 5, capped at `maxLength`. |
| ApiUtils.TruncateFitting | services/apiUtils.ts:64-70 | A name that fits is not cut: the result is the base plus `.docx`. |
| ApiUtils.StripAppended | services/apiUtils.ts:59-62 | Stripping a just-appended `.docx` gives back the base, so the extension is never doubled. |
| ApiUtils.TruncatedIsTrimmed | services/apiUtils.ts:57-70 | A truncated name has no surrounding white space. |
| ApiUtils.TruncateIdempotent | services/apiUtils.ts:55-71 | For `maxLength >= 5`, truncating a truncated name changes nothing. |
| ApiUtils.HandleApiError | services/apiUtils.ts:4-19 | An error arises iff the response is not OK. It is the network/CORS error iff the status is 0 or the type is opaque or error. Otherwise it carries the status and the body, or a placeholder when the body cannot be read. |
| ApiUtils.ProcessJsonResponse | services/apiUtils.ts:21-39 | A non-OK response fails with the error above whatever its body, and an empty body is `{}`. A parsable body is its value. An unparsable one is the HTML error iff its trimmed, lower-cased text starts with `<!doctype html>`, and the generic parse error otherwise. |
| ApiUtils.NonOkIgnoresBody | services/apiUtils.ts:22 | For a non-OK response, the outcome does not depend on how the body would parse. |
| RequestService.UserRequestsCall | services/requestService.ts:7-20 | The request goes to `/user/fetch/request` under the base URL with keys `user_id`, `page_num`, `n` in that order and `n = 10`. |
| RequestService.DecodeUserRequests | services/requestService.ts:29-31 | A failed response propagates its fault and a `null` reply throws on the property read. Otherwise a reply without a truthy `requests` gives an empty list, and one with it gives the `requests` value. |
| RequestService.EmptyReplyHasNoRequests | services/requestService.ts:25-31 | An empty OK body yields an empty request list. |
| RequestService.RequestStateCall | services/requestService.ts:38-42 | The request goes to `/user/fetch/request/state` with only `request_id`. |
| RequestService.DecodeRequestState | services/requestService.ts:51-56 | Success only when the reply's `success` is truthy; a null body fails with the TypeError for reading `success`; otherwise the server's error text or `Failed to fetch request state details`. |
| RequestService.RequestStateSucceedsExactly | services/requestService.ts:51-56 | A request state is returned iff the processed response has a body whose `success` is truthy. |
| RequestService.ApproveCurationStep | services/requestService.ts:59-97 | Nothing is sent iff the edited instructions are non-empty and unparsable, and then the error is the invalid-JSON message. Otherwise the approval body goes to `/resume/curate/approve` and the reply is classified as any JSON response. |
| RequestService.ApprovalBody | services/requestService.ts:65-85 | `request_id` is always present. `edited_instructions` is present iff the edit is non-empty, sent verbatim. `custom_instructions` is present iff its trimmed form is non-empty, sent trimmed. |
| RequestService.ApprovalBodyHasNoOtherKeys | services/requestService.ts:65-85 | The approval payload holds no key besides the three named. |
| Pipeline.SafeJsonParse | components/RequestDashboard.tsx:13-24 | The result is absent iff the input is falsy or `"None"`. Objects and arrays pass through, a parsable string is its value, and an unparsable one is `{raw: text}`; it never fails. |
| Pipeline.SafeParseOfPrinted | components/RequestDashboard.tsx:13-24 | A stage output stored as printed JSON text decodes back to the value, whenever `JSON.parse` reads that text back. |
| Pipeline.UnparsableStageKeepsRawText | components/RequestDashboard.tsx:20-22 | An unparsable stage output is kept as `{raw: text}`. |
| Pipeline.DecodeStages | components/RequestDashboard.tsx:189-194 | Each of the four stage outputs is the safe parse of the matching `Agent<n>` property. |
| Pipeline.ReadyAndApprovedExclusive | components/RequestDashboard.tsx:211-212 | Ready-for-approval and approved are never both true; once the coach stage is present, exactly one holds. |
| Pipeline.Progress | components/RequestDashboard.tsx:253-258 | Progress is 25% times the rank of the highest present stage, so the 87.5% branch is never taken. |
| Pipeline.ProgressMonotone | components/RequestDashboard.tsx:253-258 | Adding stage outputs never lowers the progress. |
| Pipeline.HalfWayAtRecruiterView | components/RequestDashboard.tsx:257 | With only the first two stages present, progress is 50%. |
| Pipeline.Disclose | components/RequestDashboard.tsx:274-333 | A disabled (incomplete) stage button changes nothing. Otherwise clicking the open stage closes it and clicking another opens only that one. An open stage is always a complete one, or the one already open. |
| Pipeline.DiscloseTwice | components/RequestDashboard.tsx:332 | Two clicks on an enabled stage return to open-or-closed as before, with no other stage open. |
| Pipeline.OnNewData | components/RequestDashboard.tsx:196-208 | The edited JSON is always overwritten: the pretty-printed coach output, or empty. Custom instructions are cleared iff the data belongs to a request other than the one last populated. The app remounts the panel on every fetch, so the keep branch is never reached there (see Findings). |
| Pipeline.LastFetchWins | components/RequestDashboard.tsx:202-206 | The edited JSON after new data does not depend on the edits made before. |
| Pipeline.SwitchingRequestDiscardsEdits | components/RequestDashboard.tsx:201-204 | Data for another request leaves the buffer as if it had never been edited. |
| Pipeline.RemountedOnNewData | components/RequestDashboard.tsx:176-208 | After a re-fetch the panel mounts again, so the custom instructions are empty. The JSON buffer is what new data would give anyway. |
| Pipeline.RefreshLosesInstructions | components/RequestDashboard.tsx:176-208 | As written, a refresh of the same request loses typed custom instructions that the effect meant to keep. |
| Pipeline.RefreshKeepsInstructions | components/RequestDashboard.tsx:196-208 | As intended by the effect, new data for the same request changes only the JSON buffer. |
| Pipeline.ApproveError | components/RequestDashboard.tsx:222-234 | There is no error iff the request was sent and the reply's `success` is truthy. A local refusal shows its reason, and a transport fault shows its message. A `null` reply shows the TypeError from reading `success`. Any other reply shows its `error`, or `Approval failed.` when that is falsy. |
| Pipeline.Approve | components/RequestDashboard.tsx:222-234 | A disabled button does nothing. Otherwise the approval request is made from the edit buffer, and the panel shows exactly the error the outcome gives. The dashboard refreshes iff there is none. |
| Pipeline.RefusedApprovalStays | components/RequestDashboard.tsx:222-234 | A refused approval shows the server's reason or the default, does not refresh, and leaves the button enabled for another try. |
| Pipeline.ApproveKeepsBuffer | components/RequestDashboard.tsx:222-234 | An approval that did not refresh leaves the buffer intact: retrying sends a request iff the first click did. |
| Instructions.Display | components/RequestDashboard.tsx:63-106 | Text shows as text and arrays item by item. Null, numbers and booleans show nothing. An object with both `suggestion` and `type` shows a non-empty tag, marked as a removal iff the type is `remove`; any other object shows verbatim. |
| Instructions.DisplayShowsEveryString | components/RequestDashboard.tsx:63-106 | The texts on screen are exactly the instruction strings of the value, in document order, at any nesting depth. |
| Instructions.DisplayShowsEveryItem | components/RequestDashboard.tsx:70-80 | For an array, the texts on screen are the concatenated strings of its items. |
| Instructions.RemovalOfText | components/RequestDashboard.tsx:91-101 | `{type: "remove", suggestion: t}` shows `t` under the removal tag `remove`. |
| RequestList.TaskName | components/RequestDashboard.tsx:442-450 | An endpoint containing `tailor` or `curate` is Resume Tailoring. Otherwise one containing `parse` or `upload` is Resume Analysis, and anything else is the endpoint itself. |
| RequestList.TailoringWinsOverAnalysis | components/RequestDashboard.tsx:443-448 | Tailoring words take priority over analysis words. |
| RequestList.PipelineExactlyForTailoring | components/RequestDashboard.tsx:443-445 | The pipeline view is chosen exactly for endpoints with a tailoring word, or that are literally `Resume Tailoring`. |
| RequestList.BandOf | components/RequestDashboard.tsx:474-480 | Queue positions fall in exactly one band: up to 10, 11 to 20, over 20. |
| RequestList.StatusBadge | components/RequestDashboard.tsx:452-487 | `Finished` and `Pending` get their own badges. A numeric status gets a queue badge with its number and band. Any other status shows nothing iff `Number()` cannot read it. |
| RequestList.QueuedWordShowsNothing | components/RequestDashboard.tsx:470-471 | The status word `Queued` shows no badge. |
| RequestList.PositionTextMatchesNumber | components/RequestDashboard.tsx:470 | A position sent as digit text shows the same badge as the number. |
| RequestList.LoadRequests | components/RequestDashboard.tsx:522-542 | With no service address only the configure message is set. Otherwise loading ends, and the expanded row closes. Success replaces the rows and page, with a next page iff the page holds exactly 10 rows; failure empties the rows with the error message. |
| RequestList.AutoLoadsAfterLoad | components/RequestDashboard.tsx:535-548 | After a load, the open panel loads page 1 by itself iff the page came back empty or the load failed with an empty message (an empty error is falsy). |
| RequestList.ShortPageIsLast | components/RequestDashboard.tsx:534 | A page of fewer than 10 rows has no next page. |
| RequestList.PagingButtonsAfterLoad | components/RequestDashboard.tsx:534-677 | After loading page 1, Prev is disabled, and Next is enabled iff the page is full. |
| RequestList.RowClick | components/RequestDashboard.tsx:550-559 | Clicking the expanded row without force collapses it. Otherwise the row expands, starts loading, and previous details and errors are cleared. |
| RequestList.DetailsArrived | components/RequestDashboard.tsx:561-569 | Loading ends; success stores the reply's `agents`, failure stores the fault message. |
| RequestList.ForcedClickKeepsRowOpen | components/RequestDashboard.tsx:550-551 | A forced click keeps the expanded row open; a plain click closes it. |
| RequestList.Find | components/RequestDashboard.tsx:574 | The request found carries the id and is in the list; none is found iff no request has the id. |
| RequestList.Refresh | components/RequestDashboard.tsx:572-579 | With no expanded row, or one whose id is empty, the current page reloads. Otherwise that row is refetched if it is still listed, and nothing happens if not. |
| RequestList.RefreshKeepsRowOpen | components/RequestDashboard.tsx:550-579 | A refetch from the refresh button keeps the row expanded and marks its details as loading. |
| RequestList.ShowAnalysis | components/RequestDashboard.tsx:489-500 | Falsy details (absent, `null`, `false`, `0`, `""`) show no details. Feedback is shown iff the details are a non-empty object or array; anything else is reported as unparsable. |
| RequestList.UnparsableAnalysisIsShownRaw | components/RequestDashboard.tsx:489-500 | Analysis text that `JSON.parse` rejects is shown wrapped as `{raw: text}`, never as unparsable. |
| RequestList.FalsyAnalysisShowsNoDetails | components/RequestDashboard.tsx:489-500 | Analysis text that parses to a falsy value shows no details. |
| RequestList.CouldNotParseExactly | components/RequestDashboard.tsx:489-500 | "Could not parse" appears iff the text parses to a truthy scalar or an empty object or array. |
| RequestList.ExpandedView | components/RequestDashboard.tsx:639-657 | The spinner shows iff the details are loading. The error box shows iff they are not and the error text is non-empty, and it carries that text. A stage view appears iff the details are truthy, loaded and without a shown error: the pipeline for tailoring tasks and the first stage's analysis otherwise. |
| RequestList.DetailsSettledPreserved | components/RequestDashboard.tsx:550-570 | Loading and a details error never coexist: row clicks, settled fetches and page loads all keep this. |
| RequestList.RefetchUnmountsPipeline | components/RequestDashboard.tsx:550-559 | A refetch replaces the expanded body with the spinner, so a pipeline panel on screen is unmounted. |
| JobPost.Pad2 | App.tsx:18-19 | Two digits whose value is the number. |
| JobPost.FormatDate | App.tsx:16-21 | The year's text, `-`, two digits worth the month, `-`, two digits worth the day. |
| JobPost.FormatDateRoundTrip | App.tsx:16-21 | Reading back a formatted date gives the date. |
| JobPost.FormatDateCharacters | App.tsx:16-21 | A formatted date holds only digits and dashes and ends in a digit. |
| JobPost.FindAgo | App.tsx:41 | The leftmost match of `(a\|\d+)\s+(day\|week\|month)s?\s+ago`; none iff no position matches. |
| JobPost.AgoAt | App.tsx:41 | The regular expression tried at one position: the alternative `a` first, then digits; a match starting with `a` has quantity 1 (characterised in full by `AgoAtExactly`). |
| JobPost.AgoAtExactly | App.tsx:41-44 | A position matches with quantity n and unit u iff the text there starts with `a` or a run of digits, white space, the unit's word, an optional `s`, white space and `ago`, where n is one for `a` and the digits' value otherwise. |
| JobPost.Classify | App.tsx:32-58 | `today`, `just now` or `hour` mean now. Failing those, `yesterday` means one day ago, and failing that the leftmost "ago" phrase decides. |
| JobPost.AgoOffset | App.tsx:43-57 | Days subtract days, weeks subtract seven days each, and months subtract calendar months. No match leaves the date unchanged. |
| JobPost.Target | App.tsx:29-58 | Today is `now`. So many days back (weeks already counted as seven days) is the calendar's day subtraction, and months back its month subtraction, an Invalid Date where that leaves the time range. No offset gives no date. |
| JobPost.PostDateTarget | App.tsx:24-62 | The target of a `post_date` text is the target of its lower-cased, trimmed classification; a blank text has none. |
| JobPost.ProcessRelativeDates | App.tsx:23-69 | A missing or null `post_date` leaves the record unchanged, and any other non-string one is the runtime error. An unclassified phrase is kept. A classified one is replaced in place by the formatted target date, and every other key is kept. |
| JobPost.NoAgoWithoutSpace | App.tsx:41 | Text without white space has no "ago" phrase. |
| JobPost.FormattedDateIsUnchanged | App.tsx:32-58 | A formatted date is classified as unchanged. |
| JobPost.InvalidDateIsUnchanged | App.tsx:15-58 | The `NaN-NaN-NaN` text of an Invalid Date is classified as unchanged. |
| JobPost.FormattedMomentIsUnchanged | App.tsx:15-58 | Whatever date was written, valid or invalid, its text is classified as unchanged. |
| JobPost.WeeksCountSevenDays | App.tsx:24-53 | A `post_date` reading "N weeks ago" after trimming and lower-casing targets N times seven days before `now`. |
| JobPost.ProcessIdempotent | App.tsx:23-69 | Processing a processed record again, on any day, changes nothing. |
| JobPost.FormattedDateIsStable | App.tsx:61-68 | A record whose date is already a written date, valid or invalid, is returned as is. |
| JobPost.UnchangedIsStable | App.tsx:23-69 | A record left unchanged on one day is left unchanged on any day. |
| JobPost.FinalJob | App.tsx:147-152 | `referral` defaults to false only when missing. `description` becomes the last key. Every other key keeps its value and relative order, with a defaulted `referral` placed after them. |
| JobPost.HandleParse | App.tsx:131-162 | The parse service is called iff the description is not blank; a blank one gives the empty-description error. A failure prefixes its message; success shows the post-processed record. |
| JobPost.HandleParsePrintsNormalisedRecord | App.tsx:131-162 | A successful parse prints the normalised record: the reply's own `referral` or `false`, and a recognised posting date replaced by its target. |
| ResumeCenter.FormattedDateAsWritten | components/ResumeCenter.tsx:85-97 | The date as the code computes it: none for a missing value or a length other than 8, and `undefined DD, YYYY` when the month field is not a number. |
| ResumeCenter.NonNumericMonthShowsUndefined | components/ResumeCenter.tsx:90-96 | `2024ab15` is shown as `undefined 15, 2024`. |
| ResumeCenter.FormattedDate | components/ResumeCenter.tsx:85-97 | None for a missing value or a length other than 8. Otherwise none iff the month field is not a number from 1 to 12; else `<Mon> <DD>, <YYYY>` with the day and year copied as they are. |
| ResumeCenter.FormattedDateNamesAMonth | components/ResumeCenter.tsx:92-96 | A shown date always starts with a month name. |
| ResumeCenter.DigitMonthRange | components/ResumeCenter.tsx:90-95 | For a two-digit month field, there is no date iff the field lies outside 01..12. |
| ResumeCenter.AsWrittenAgreesOnNumbers | components/ResumeCenter.tsx:85-97 | Wherever the month field reads as a number, the code's date and the intended one agree. |
| ResumeCenter.FinalRenameName | components/ResumeCenter.tsx:263-266 | The trimmed name, extended by `.docx` iff it does not already end with it in some letter case; the result always does. |
| ResumeCenter.FinalRenameNameIdempotent | components/ResumeCenter.tsx:263-266 | Renaming to the final name again changes nothing. |
| ResumeCenter.TabClick | components/ResumeCenter.tsx:232-237 | The active tab changes nothing; another tab becomes active and cancels the rename. |
| ResumeCenter.RenameClick | components/ResumeCenter.tsx:248-250 | The rename starts from the resume's id and current name. |
| ResumeCenter.RenameCancel | components/ResumeCenter.tsx:252-255 | Both the rename and the error are cleared. |
| ResumeCenter.RenameSubmit | components/ResumeCenter.tsx:257-279 | A missing or blank name sets the empty-name error with no call. Otherwise the final name is sent. Success clears the rename and reloads; failure keeps the rename and shows the reply's error or the default; a null result keeps the rename open with no error and no reload. |
| ResumeCenter.SubmittedNamesAreDocx | components/ResumeCenter.tsx:263-270 | Every name a rename sends ends in `.docx` in some letter case. |
| JsonEditor.WithReferral | components/JsonEditor.tsx:144-150 | Only objects and arrays can take the flag. The result holds `referral` set to the checked value, and for an object `description` is moved last. |
| JsonEditor.ReferralChange | components/JsonEditor.tsx:141-154 | The checkbox follows the click. Unparsable text is left unchanged; an object is rewritten with the flag set and `description` last. |
| JsonEditor.ReferralToggleChangesOnlyTheFlag | components/JsonEditor.tsx:145-150 | Every key other than `referral` keeps its value. With `referral` already present, the key order is unchanged except that `description` goes last. A new `referral` comes after all the other keys and before `description`. |
| JsonEditor.SyncReferral | components/JsonEditor.tsx:99-106 | The text is untouched. The checkbox becomes the truthiness of `referral` when the text parses to an object, and is left alone for unparsable text or `null`. |
| JsonEditor.ToggleThenSyncAgrees | components/JsonEditor.tsx:99-150 | After a toggle, the synchronised checkbox agrees with the click, given that parsing the printed object gives it back. |
| JsonEditor.ToggleUploadUI | components/JsonEditor.tsx:121-128 | Turning the upload area on clears the selected resume; turning it off clears the pending file. |
| JsonEditor.SelectResume | components/JsonEditor.tsx:130-134 | Selecting the selected resume deselects it and any other selects it; either way the upload area hides and the pending file goes. |
| JsonEditor.SelectionKeepsOneSource | components/JsonEditor.tsx:121-139 | The upload area and a selected resume are never active together: toggling and selecting establish it, and choosing or cancelling a file keeps it. |
| JsonEditor.ToggleTwiceClears | components/JsonEditor.tsx:121-128 | Opening and closing the upload area drops both the selection and the pending file. |
| JsonEditor.FileSelected | components/JsonEditor.tsx:29-38 | A file is taken iff it is a `.docx` by MIME type or name; otherwise nothing changes. |
| JsonEditor.CancelFile | components/JsonEditor.tsx:269 | Cancelling drops only the pending file. |
| JsonEditor.FileKeepsSelection | components/JsonEditor.tsx:137-140 | Choosing a file keeps the selected resume, so both can be set at once. |
| JsonEditor.ResumeToCurate | components/JsonEditor.tsx:177-193 | With a pending file, the id is the upload's `resume_id`, which must be truthy with a truthy `success`; a null upload result fails with the TypeError for reading `success`; otherwise the upload error or its default. Without a file, the selected resume, or the no-resume error. |
| JsonEditor.StatusLine | components/JsonEditor.tsx:172-206 | Only a queued request leaves a non-error status; every thrown error shows behind `Curation Failed: `. |
| JsonEditor.HandleCurate | components/JsonEditor.tsx:164-210 | Unparsable text ends the click with the invalid-JSON status and no calls. An upload happens iff the text parses and a file is pending, under the truncated file name. Curation is requested with the resolved id and the parsed job, and the request is queued iff curation reports success; a null curation result ends with the TypeError for reading `success`, otherwise failure shows the server's error or the default. |
| JsonEditor.FileTakesPrecedence | components/JsonEditor.tsx:177-186 | With both a file and a selection, the uploaded resume is curated. |
| JsonEditor.EnabledButtonHasAResume | components/JsonEditor.tsx:188-295 | Behind an enabled button, a click that sends no curation failed its upload; the no-resume error cannot arise. |
| UploadModal.Reset | components/UploadResumeModal.tsx:27-33 | File, name, loading, error and success are all cleared. |
| UploadModal.ResetForgets | components/UploadResumeModal.tsx:27-33 | A reset leaves nothing of the previous state. |
| UploadModal.OpenChanged | components/UploadResumeModal.tsx:35-47 | Opening for an update fills in the resume's name, and opening to create keeps the state. Closing resets it. |
| UploadModal.Close | components/UploadResumeModal.tsx:50-53 | The dialog closes iff no upload is loading. |
| UploadModal.FileSelect | components/UploadResumeModal.tsx:55-69 | Messages are cleared first. A file is taken iff it is a `.docx` by MIME type or name, and it names the resume unless updating. Any other file sets the invalid-type error and drops the file. |
| UploadModal.UpdateModeKeepsName | components/UploadResumeModal.tsx:61-63 | In update mode no file choice changes the name. |
| UploadModal.Submit | components/UploadResumeModal.tsx:99-124 | No file or a blank name sets the error with no upload. Otherwise the truncated name is uploaded, with `ResumeId` only when updating. Success shows the reply's message or the mode's default; failure shows the reply's error or the default; a null result leaves the dialog settled with neither message and no success callbacks. |
| UploadModal.EnabledSubmitUploads | components/UploadResumeModal.tsx:100-211 | An enabled submit button always uploads. |
| UploadModal.UploadedNamesAreDocx | components/UploadResumeModal.tsx:105-111 | Every uploaded name ends in `.docx`. |
| UploadModal.SuccessThenCloses | components/UploadResumeModal.tsx:113-120 | After a successful upload the delayed close is honoured. |
| Login.PinFilter | components/LoginPage.tsx:117 | The result is all digits and no longer than the input; digit input passes unchanged. |
| Login.PinFilterAppend | components/LoginPage.tsx:117 | Filtering distributes over concatenation. |
| Login.PinFilterKeepsDigits | components/LoginPage.tsx:117 | Every digit is kept as often as it occurs and every other character is dropped. |
| Login.PinFilterIdempotent | components/LoginPage.tsx:117 | Filtering a filtered PIN changes nothing. |
| Login.LoadUsers | components/LoginPage.tsx:19-41 | With no service address the list is empty, with no error and no request. An empty fetched list sets the no-users error; a failure empties the list with the prefixed message. |
| Login.UsersOrError | components/LoginPage.tsx:19-41 | After a request for users, the page shows a non-empty list iff it shows no error. |
| Login.HandleLogin | components/LoginPage.tsx:47-69 | No user or a PIN not four long is refused with a message and no request. Login succeeds iff the result has truthy `success` and `Id`. A null result shows `Login failed:` with the TypeError for reading `success` and keeps the PIN; any other non-null result clears the PIN; a thrown error keeps it. |
| Login.EnabledLoginSends | components/LoginPage.tsx:49-135 | An enabled login button always sends the selected user and PIN. |
| Login.ThrownErrorKeepsLoginEnabled | components/LoginPage.tsx:55-135 | A thrown error, the null read of `success` included, keeps the PIN and leaves the button enabled, with no login. |
| Login.RejectedPinDisablesLogin | components/LoginPage.tsx:60-135 | After a rejected PIN the button stays disabled until a PIN is typed again. |
| JsonValues.SetField | components/JsonEditor.tsx:144 | The key takes the value and other keys keep theirs. An existing key keeps its place, and a new one is appended. |
| JsonValues.MoveLast | App.tsx:151-152 | The key moves to the end with its value, and all other entries keep their order and values. |
| Text.Trim | services/apiUtils.ts:57 | The result is the slice left after dropping white space from both ends, and only white space. It has no white space at either end and is empty iff the input is all white space. |
| Text.ParseInt | components/ResumeCenter.tsx:90 | NaN iff, after leading white space and an optional sign, no digit follows. |

## Left out

- Network and browser I/O are replaced by reply parameters: `fetch`, `FormData` bodies, blob download, clipboard, `localStorage` and `setTimeout` delays.
- The external language-model service is left out, because its code is not part of this model.
- Rendering-only components are left out: agent displays, header, particle burst, logo, floating button, configuration modal and parser form.
- The download flow (`handleDownload`, the download button) is left out. It only moves a blob to the browser.
- The resume list fetch and its `HasJson` filter in the JSON editor are left out. They are I/O plus a one-line filter.
- Transient progress messages ("Uploading new resume...", "Starting curation process...") are not modelled. Only the final status of a click is.
- `handleToggleUploadUI` is modelled, but no rendered control calls it in the source.
- The `maxLength={4}` attribute of the PIN field is a browser constraint and is not modelled; the PIN is whatever the filter kept.
- `JSON.parse` and `JSON.stringify` are abstract parameters. No concrete grammar, escaping or pretty-printing is modelled.
- JavaScript orders integer-like object keys first. That ordering is not modelled: objects keep insertion order.
- Numbers are integers. Floating point, and the fractions, exponents and hex that `Number()` accepts, are left out.
- `toLowerCase` is modelled on ASCII letters only. Unicode case mapping is left out.
- JS `Date` arithmetic (`setDate`/`setMonth` rollover, the local time zone, the clock) is the abstract `Calendar` and `now`. Which offsets leave the time range and give an Invalid Date is up to the `Calendar`; what an Invalid Date is written as (`NaN-NaN-NaN`) is modelled.
- `localeCompare` sorting of users is left out; the fetched list arrives already ordered.
- The stale-response race when switching expanded rows quickly is left out: each reply is applied to the state it is given.
- Decoding server request records into `UserRequest` is not modelled; they are taken to match `types.ts`.
- TypeError messages use the V8 wording; other engines word them differently.
- ApiUtils.TruncateFileName: lengths and cuts count Unicode code points, while JavaScript's `length` and `slice` count UTF-16 code units. A name with characters outside the Basic Multilingual Plane can come out longer than `maxLength` in JavaScript's count, and JavaScript may cut such a character in half. The model does neither.
- ResumeCenter.FormattedDate: the `length !== 8` test on `CreatedOn` counts code points, not UTF-16 code units, for the same reason.

## Findings

| source | as written | input that shows it | evidently intended | confidence | as-written member | corrected member |
|---|---|---|---|---|---|---|
| components/RequestDashboard.tsx:176-208 | Every detail fetch clears `requestDetails` and sets `detailsLoading` (lines 556-559), which unmounts the pipeline panel (line 644). The `useRef` at line 179 starts again at `null`, so the effect's branch that keeps the custom instructions never runs. | Type custom instructions, then press Refresh, or approve successfully: the instructions are gone. | New data for the same request refreshes only the JSON buffer and keeps the typed instructions. | not executed | Pipeline.RemountedOnNewData, Pipeline.RefreshLosesInstructions | Pipeline.OnNewData, Pipeline.RefreshKeepsInstructions |
| components/ResumeCenter.tsx:90-96 | `parseInt` of a non-numeric month field gives NaN, which passes both range comparisons, so `monthNames[NaN]` is `undefined` | `CreatedOn = "2024ab15"` shows `undefined 15, 2024` | no date unless the month field is a number from 1 to 12 | not executed | ResumeCenter.FormattedDateAsWritten, ResumeCenter.NonNumericMonthShowsUndefined | ResumeCenter.FormattedDate |

=== FILE: api_utils.dfy ===
/** The shared HTTP helpers: base-URL normalisation, the file-name truncation
    used before every upload, and the classification of a `fetch` response
    into a parsed JSON body or an error with a user-facing message. */
module ApiUtils {
  import opened Wrappers
  import opened Text
  import opened JsonValues
  import opened Files

  /** `apiUrl.replace(/\/$/, "")`: drops one trailing slash, if there is one. */
  function BaseUrl(apiUrl: string): (r: string)
    ensures apiUrl == r || apiUrl == r + "/"
    ensures EndsWith(apiUrl, "/") <==> apiUrl == r + "/"
  {
    if EndsWith(apiUrl, "/") then apiUrl[..|apiUrl| - 1] else apiUrl
  }

  /** Only one slash goes: a URL ending in two keeps one. */
  lemma BaseUrlDropsOnlyOneSlash(u: string)
    ensures BaseUrl(u + "//") == u + "/"
  {
  }

  /** A configured address with or without its trailing slash names the same
      server: every endpoint is built from the same base. */
  lemma TrailingSlashIrrelevant(u: string)
    requires !EndsWith(u, "/")
    ensures BaseUrl(u + "/") == BaseUrl(u) == u
  {
    assert (u + "/")[..|u|] == u;
  }

  /** `s.slice(0, end)`, where a negative `end` counts from the end of `s`. */
  function SliceTo(s: string, end: int): string {
    if end < 0 then (if |s| + end <= 0 then [] else s[..|s| + end])
    else if end >= |s| then s
    else s[..end]
  }

  /** The name without one trailing `.docx` in any letter case. */
  function StripDocx(s: string): (r: string)
    ensures EndsWith(ToLower(s), DocxExtension) ==> |r| + |DocxExtension| == |s|
    ensures !EndsWith(ToLower(s), DocxExtension) ==> r == s
    ensures StartsWith(s, r)
  {
    if EndsWith(ToLower(s), DocxExtension) then s[..|s| - |DocxExtension|] else s
  }

  const DefaultMaxLength := 100

  /** `truncateFileName(fileName, maxLength)`: the trimmed name loses its own
      `.docx` (any case), is cut to leave room for the extension, and gets
      `.docx` appended. */
  function TruncateFileName(fileName: string, maxLength: int): (r: string)
    ensures EndsWith(r, DocxExtension)
    ensures StartsWith(StripDocx(Trim(fileName)), r[..|r| - |DocxExtension|])
    ensures maxLength >= |DocxExtension| ==>
      |r| == if |StripDocx(Trim(fileName))| + |DocxExtension| <= maxLength
             then |StripDocx(Trim(fileName))| + |DocxExtension| else maxLength
  {
    var base := StripDocx(Trim(fileName));
    var maxBase := maxLength - |DocxExtension|;
    var cut := CutBase(base, maxBase);
    assert (cut + DocxExtension)[..|cut|] == cut;
    cut + DocxExtension
  }

  /** The base cut to at most `maxBase` characters, as `slice` does it. */
  function CutBase(base: string, maxBase: int): (r: string)
    ensures StartsWith(base, r)
    ensures maxBase >= 0 ==> |r| == if |base| <= maxBase then |base| else maxBase
  {
    if |base| > maxBase then SliceTo(base, maxBase) else base
  }

  /** A name that already fits comes back trimmed with its extension in lower case. */
  lemma TruncateFitting(fileName: string, maxLength: int)
    requires |StripDocx(Trim(fileName))| + |DocxExtension| <= maxLength
    ensures TruncateFileName(fileName, maxLength) == StripDocx(Trim(fileName)) + DocxExtension
  {
  }

  /** Appending `.docx` and stripping it again gives the name back. */
  lemma StripAppended(b: string)
    ensures StripDocx(b + DocxExtension) == b
  {
    var s := b + DocxExtension;
    var low := ToLower(s);
    forall i | 0 <= i < |DocxExtension|
      ensures low[|b| + i] == DocxExtension[i]
    {
      assert s[|b| + i] == DocxExtension[i];
    }
    assert low[|s| - |DocxExtension|..] == DocxExtension;
  }

  /** A truncated name neither starts nor ends with white space. */
  lemma TruncatedIsTrimmed(fileName: string, maxLength: int)
    ensures Trim(TruncateFileName(fileName, maxLength)) == TruncateFileName(fileName, maxLength)
  {
    var r := TruncateFileName(fileName, maxLength);
    var kept := r[..|r| - |DocxExtension|];
    var base := StripDocx(Trim(fileName));
    assert r == kept + DocxExtension;
    assert r[|r| - 1] == 'x';
    if kept == [] {
      assert r[0] == '.';
    } else {
      assert kept[0] == base[0];
      assert base[0] == Trim(fileName)[0];
    }
    TrimUnpadded(r);
  }

  /** Truncating an already truncated name changes nothing. */
  lemma TruncateIdempotent(fileName: string, maxLength: int)
    requires maxLength >= |DocxExtension|
    ensures TruncateFileName(TruncateFileName(fileName, maxLength), maxLength)
         == TruncateFileName(fileName, maxLength)
  {
    var r := TruncateFileName(fileName, maxLength);
    var kept := r[..|r| - |DocxExtension|];
    assert r == kept + DocxExtension;
    TruncatedIsTrimmed(fileName, maxLength);
    StripAppended(kept);
    assert StripDocx(Trim(r)) == kept;
    assert |kept| <= maxLength - |DocxExtension|;
  }

  datatype ResponseType = Basic | Cors | Default | Error | Opaque | OpaqueRedirect

  /** What the code reads of a `fetch` response. `body` is the outcome of
      `response.text()`: the text, or the message of the error it rejects with. */
  datatype Response = Response(ok: bool, status: int, kind: ResponseType, body: Result<string, string>)

  /** The errors the helpers throw, each rendered by `FaultMessage`. */
  datatype Fault =
    | NetworkOrCors(entity: string)
    | BadStatus(entity: string, status: int, body: string)
    | HtmlInsteadOfJson(entity: string)
    | InvalidJson(entity: string)
    | Thrown(message: string)

  const UnreadableBody := "Could not retrieve error details."
  const DoctypePrefix := "<!doctype html>"

  /** The text of each error, as the user sees it. */
  function FaultMessage(f: Fault): string {
    match f
    case NetworkOrCors(e) =>
      "Failed to fetch " + e + " due to a network or CORS issue. Please check the browser console for details."
    case BadStatus(e, status, body) =>
      "Failed to fetch " + e + ". Status: " + IntToString(status) + ". Body: " + body
    case HtmlInsteadOfJson(e) =>
      "Failed to parse JSON response for " + e
      + ". The server returned an HTML page instead of JSON. This is often caused by a proxy or tunnel service like ngrok."
    case InvalidJson(e) =>
      "Failed to parse JSON response for " + e + "."
    case Thrown(m) => m
  }

  /** `handleApiError`: an OK response passes; any other fails, as a network or
      CORS problem when the status is 0 or the response is opaque or an error,
      and otherwise with its status and body (or a placeholder when the body
      cannot be read). */
  function HandleApiError(resp: Response, entity: string): (r: Option<Fault>)
    ensures r.None? <==> resp.ok
    ensures r.Some? ==> (r.value.NetworkOrCors? <==> resp.status == 0 || resp.kind == Opaque || resp.kind == Error)
    ensures r.Some? ==> r.value.NetworkOrCors? || r.value.BadStatus?
    ensures r.Some? && r.value.BadStatus? ==>
      r.value.status == resp.status
      && r.value.body == (if resp.body.Success? then resp.body.value else UnreadableBody)
    ensures r.Some? ==> r.value.entity == entity
  {
    if resp.ok then None
    else if resp.status == 0 || resp.kind == Opaque || resp.kind == Error then Some(NetworkOrCors(entity))
    else Some(BadStatus(entity, resp.status, if resp.body.Success? then resp.body.value else UnreadableBody))
  }

  /** `processJsonResponse`: a non-OK response fails before its body is looked
      at; an empty body is `{}`; a body `JSON.parse` accepts is its value; any
      other body fails, as an HTML page when its trimmed, lower-cased text
      starts with `<!doctype html>`. */
  function ProcessJsonResponse(resp: Response, entity: string, parse: Parser): (r: Result<Json, Fault>)
    ensures !resp.ok ==> r.Failure? && Some(r.error) == HandleApiError(resp, entity)
    ensures resp.ok && resp.body.Failure? ==> r == Failure(Thrown(resp.body.error))
    ensures resp.ok && resp.body == Success("") ==> r == Success(Object([]))
    ensures resp.ok && resp.body.Success? && resp.body.value != "" ==>
      (r.Success? <==> parse(resp.body.value).Some?)
      && (r.Success? ==> r.value == parse(resp.body.value).value)
      && (r.Failure? ==>
            (r.error == HtmlInsteadOfJson(entity) <==> StartsWith(ToLower(Trim(resp.body.value)), DoctypePrefix))
            && (r.error == InvalidJson(entity) <==> !StartsWith(ToLower(Trim(resp.body.value)), DoctypePrefix)))
  {
    match HandleApiError(resp, entity)
    case Some(f) => Failure(f)
    case None =>
      match resp.body
      case Failure(m) => Failure(Thrown(m))
      case Success(text) =>
        if text == "" then Success(Object([]))
        else match parse(text)
          case Some(j) => Success(j)
          case None =>
            if StartsWith(ToLower(Trim(text)), DoctypePrefix) then Failure(HtmlInsteadOfJson(entity))
            else Failure(InvalidJson(entity))
  }

  /** Whatever `JSON.parse` would make of it, a non-OK response yields the same error. */
  lemma NonOkIgnoresBody(resp: Response, entity: string, p1: Parser, p2: Parser)
    requires !resp.ok
    ensures ProcessJsonResponse(resp, entity, p1) == ProcessJsonResponse(resp, entity, p2)
  {
  }
}

=== FILE: files.dfy ===
/** A browser `File` as the upload forms see it, and the `.docx` acceptance
    test both upload forms apply (the embedded uploader and the upload dialog). */
module Files {
  import opened Text

  datatype File = File(name: string, mimeType: string)

  const DocxMimeType := "application/vnd.openxmlformats-officedocument.wordprocessingml.document"
  const DocxExtension := ".docx"

  /** A file is accepted when its MIME type is the Word document type or its
      name ends in `.docx`, ignoring case. */
  predicate IsDocx(f: File) {
    f.mimeType == DocxMimeType || EndsWith(ToLower(f.name), DocxExtension)
  }
}

=== FILE: instructions.dfy ===
/** How one coaching instruction of unknown shape is displayed: text as text,
    arrays item by item, `{ type, suggestion }` objects as a tagged suggestion
    around the displayed suggestion, any other object as its JSON, and nothing
    for the remaining values. */
module Instructions {
  import opened Wrappers
  import opened JsonValues

  datatype Rendered =
    | Plain(text: string)
    | Items(items: seq<Rendered>)
    | Tagged(tag: string, isRemoval: bool, inner: Rendered)
    | Verbatim(obj: Json)
    | Nothing

  /** The key of the suggestion an instruction object wraps, with its kind. */
  predicate IsSuggestion(fs: Fields) {
    Lookup(fs, "suggestion").Some? && Lookup(fs, "type").Some?
  }

  /** The entry holding key `k`, the one a property read finds. */
  function EntryOf(fs: Fields, k: string): (i: nat)
    requires Lookup(fs, k).Some?
    ensures i < |fs| && fs[i].0 == k && fs[i].1 == Lookup(fs, k).value
  {
    if fs[0].0 == k then 0 else 1 + EntryOf(fs[1..], k)
  }

  /** `String(type) || 'Suggestion'`. */
  function Label(kind: Json): (l: string)
    ensures l != ""
    ensures kind.Str? && kind.s != "" ==> l == kind.s
    ensures kind == Str("") ==> l == "Suggestion"
  {
    if JsString(kind) != "" then JsString(kind) else "Suggestion"
  }

  /** `InstructionDisplay` for one value, handling arbitrary nesting. */
  function Display(j: Json): (r: Rendered)
    decreases j
    ensures j.Str? <==> r.Plain?
    ensures j.Str? ==> r.text == j.s
    ensures j.Array? <==> r.Items?
    ensures j.Array? ==> |r.items| == |j.items|
    ensures j.Null? || j.Bool? || j.Number? ==> r == Nothing
    ensures r.Tagged? <==> j.Object? && IsSuggestion(j.fields)
    ensures r.Tagged? ==> r.tag != "" && (r.isRemoval <==> Lookup(j.fields, "type") == Some(Str("remove")))
    ensures r.Verbatim? <==> j.Object? && !IsSuggestion(j.fields)
    ensures r.Verbatim? ==> r.obj == j
  {
    match j
    case Str(s) => Plain(s)
    case Array(items) => Items(seq(|items|, i requires 0 <= i < |items| => Display(items[i])))
    case Object(fs) =>
      if IsSuggestion(fs) then
        var i := EntryOf(fs, "suggestion");
        var kind := Lookup(fs, "type").value;
        Tagged(Label(kind), kind == Str("remove"), Display(fs[i].1))
      else Verbatim(j)
    case _ => Nothing
  }

  /** The texts on screen, in reading order: plain text only, since labels and
      verbatim objects are decoration. */
  function Texts(r: Rendered): seq<string> {
    match r
    case Plain(t) => [t]
    case Items(items) => TextsOfAll(items)
    case Tagged(_, _, inner) => Texts(inner)
    case _ => []
  }

  function TextsOfAll(rs: seq<Rendered>): seq<string>
    decreases rs
  {
    if rs == [] then [] else Texts(rs[0]) + TextsOfAll(rs[1..])
  }

  /** The instruction strings of a value, read straight off the JSON: its own
      text, those of each array item in order, and those of the suggestion a
      `{ type, suggestion }` object wraps. */
  function Strings(j: Json): seq<string>
    decreases j
  {
    match j
    case Str(s) => [s]
    case Array(items) => StringsOfAll(items)
    case Object(fs) =>
      if IsSuggestion(fs) then
        var i := EntryOf(fs, "suggestion");
        Strings(fs[i].1)
      else []
    case _ => []
  }

  function StringsOfAll(js: seq<Json>): seq<string>
    decreases js
  {
    if js == [] then [] else Strings(js[0]) + StringsOfAll(js[1..])
  }

  /** Every instruction string of the value is displayed, in document order,
      and nothing else is displayed as plain text. */
  lemma {:induction false} DisplayShowsEveryString(j: Json)
    ensures Texts(Display(j)) == Strings(j)
    decreases j, 1
  {
    match j
    case Str(_) =>
    case Array(items) =>
      DisplayShowsEveryItem(items, j);
    case Object(fs) =>
      if IsSuggestion(fs) {
        var i := EntryOf(fs, "suggestion");
        DisplayShowsEveryString(fs[i].1);
      }
    case _ =>
  }

  lemma {:induction false} DisplayShowsEveryItem(items: seq<Json>, whole: Json)
    requires forall x :: x in items ==> x < whole
    ensures TextsOfAll(seq(|items|, i requires 0 <= i < |items| => Display(items[i]))) == StringsOfAll(items)
    decreases whole, 0, |items|
  {
    var shown := seq(|items|, i requires 0 <= i < |items| => Display(items[i]));
    if items != [] {
      assert shown[0] == Display(items[0]);
      assert items[0] in items;
      DisplayShowsEveryString(items[0]);
      var rest := seq(|items| - 1, i requires 0 <= i < |items| - 1 => Display(items[1..][i]));
      assert shown[1..] == rest;
      assert forall x :: x in items[1..] ==> x in items;
      DisplayShowsEveryItem(items[1..], whole);
    }
  }

  /** A removal suggestion wrapping plain text shows that text under the tag `remove`. */
  lemma RemovalOfText(t: string)
    ensures Display(Object([("type", Str("remove")), ("suggestion", Str(t))])) == Tagged("remove", true, Plain(t))
  {
    var fs: Fields := [("type", Str("remove")), ("suggestion", Str(t))];
    assert Lookup(fs, "type") == Some(Str("remove"));
    assert Lookup(fs[1..], "suggestion") == Some(Str(t));
    assert EntryOf(fs, "suggestion") == 1;
  }
}

=== FILE: job_post.dfy ===
/** The post-processing of a parsed job post in the application shell: the
    relative posting date ("3 days ago") turned into a calendar date, the
    `YYYY-MM-DD` layout of that date, the `referral` default, the move of
    `description` to the last key, and the empty-description check done before
    the parse service is called. */
module JobPost {
  import opened Wrappers
  import opened Text
  import opened JsonValues

  type Month = m: int | 1 <= m <= 12 witness 1
  type Day = d: int | 1 <= d <= 31 witness 1

  /** A local calendar date: `getFullYear()`, `getMonth() + 1`, `getDate()`. */
  datatype Date = Date(year: int, month: Month, day: Day)

  /** `setDate(getDate() - n)` and `setMonth(getMonth() - n)` on a copy of a
      date, with their roll-over rules; calendar arithmetic is not modelled.
      `None` is a result outside the range of JavaScript time values, which
      leaves the copy an Invalid Date. */
  datatype Calendar = Calendar(minusDays: (Date, nat) -> Option<Date>, minusMonths: (Date, nat) -> Option<Date>)

  /** A `Date` object: a calendar date, or an Invalid Date (still an object,
      so truthy), whose fields all read as `NaN`. */
  datatype Moment = At(date: Date) | InvalidDate

  function MomentOf(d: Option<Date>): Moment {
    if d.Some? then At(d.value) else InvalidDate
  }

  /** `String(n).padStart(2, '0')` for a month or day number. */
  function Pad2(n: nat): (r: string)
    requires n < 100
    ensures |r| == 2 && AllDigits(r) && DigitsValue(r) == n
  {
    NatToStringRoundTrip(n);
    if n < 10 then
      assert DigitsValue("0") == 0;
      "0" + NatToString(n)
    else NatToString(n)
  }

  /** `formatDate`: the year as `String` writes it, then the month and the
      day, each zero-padded to two digits, joined by `-`. */
  function FormatDate(d: Date): (r: string)
    ensures |r| == |IntToString(d.year)| + 6
    ensures r[..|r| - 6] == IntToString(d.year)
    ensures r[|r| - 6] == '-' && r[|r| - 3] == '-'
    ensures AllDigits(r[|r| - 5..|r| - 3]) && DigitsValue(r[|r| - 5..|r| - 3]) == d.month
    ensures AllDigits(r[|r| - 2..]) && DigitsValue(r[|r| - 2..]) == d.day
  {
    var r := IntToString(d.year) + "-" + Pad2(d.month) + "-" + Pad2(d.day);
    assert r[|r| - 5..|r| - 3] == Pad2(d.month);
    assert r[|r| - 2..] == Pad2(d.day);
    r
  }

  /** `formatDate` of an Invalid Date: `String(NaN)` is already longer than
      the padding, so every field is `NaN`. */
  const InvalidDateText := "NaN-NaN-NaN"

  /** `formatDate` on any `Date` object. */
  function FormatMoment(m: Moment): string {
    match m
    case At(d) => FormatDate(d)
    case InvalidDate => InvalidDateText
  }

  /** Reads the `<year>-MM-DD` layout back, with the year as `parseInt` reads it. */
  function ParseDate(s: string): Option<Date> {
    if |s| < 7 || s[|s| - 6] != '-' || s[|s| - 3] != '-' then None
    else if !AllDigits(s[|s| - 5..|s| - 3]) || !AllDigits(s[|s| - 2..]) then None
    else
      var m := DigitsValue(s[|s| - 5..|s| - 3]);
      var d := DigitsValue(s[|s| - 2..]);
      match ParseInt(s[..|s| - 6])
      case None => None
      case Some(y) => if 1 <= m <= 12 && 1 <= d <= 31 then Some(Date(y, m, d)) else None
  }

  /** A formatted date reads back as the same date: the layout loses nothing. */
  lemma FormatDateRoundTrip(d: Date)
    ensures ParseDate(FormatDate(d)) == Some(d)
  {
    ParseIntRoundTrip(d.year);
  }

  /** Every character of a formatted date is a digit or `-`, and it ends in a digit. */
  lemma FormatDateCharacters(d: Date)
    ensures forall i :: 0 <= i < |FormatDate(d)| ==> IsDigit(FormatDate(d)[i]) || FormatDate(d)[i] == '-'
    ensures IsDigit(FormatDate(d)[|FormatDate(d)| - 1])
  {
    var s := FormatDate(d);
    var y := IntToString(d.year);
    var digits := if d.year < 0 then NatToString(-d.year) else NatToString(d.year);
    assert y == (if d.year < 0 then "-" else "") + digits;
    assert s == y + "-" + Pad2(d.month) + "-" + Pad2(d.day);
  }

  datatype Unit = DayUnit | WeekUnit | MonthUnit

  /** A match of `(a|\d+)\s+(day|week|month)s?\s+ago`: its quantity and unit. */
  datatype Ago = Ago(quantity: nat, unit: Unit)

  /** What follows the unit word: `s?\s+ago`. An `s` taken by `s?` can never
      be given back, since `\s+` cannot match it. */
  function AfterUnit(unit: Unit, rest: string): (r: Option<Unit>)
    ensures r.Some? ==> r == Some(unit)
  {
    var v := if StartsWith(rest, "s") then rest[1..] else rest;
    var w := TrimStart(v);
    if |w| < |v| && StartsWith(w, "ago") then Some(unit) else None
  }

  /** `(day|week|month)s?\s+ago` at the start of `u`. */
  function WordAgo(u: string): (r: Option<Unit>)
    ensures r.Some? ==> StartsWith(u, UnitWord(r.value)) && AfterUnit(r.value, u[|UnitWord(r.value)|..]) == r
  {
    if StartsWith(u, "day") then AfterUnit(DayUnit, u[3..])
    else if StartsWith(u, "week") then AfterUnit(WeekUnit, u[4..])
    else if StartsWith(u, "month") then AfterUnit(MonthUnit, u[5..])
    else None
  }

  /** `\s+(day|week|month)s?\s+ago` at the start of `t`. */
  function UnitAgo(t: string): (r: Option<Unit>)
    ensures r.Some? ==> |t| > 0 && IsSpace(t[0])
  {
    var u := TrimStart(t);
    if |u| == |t| then None else WordAgo(u)
  }

  /** The pattern tried at position `i`: the alternative `a` first, then a run
      of digits, which must be followed by white space and so never backtracks. */
  function AgoAt(s: string, i: nat): (r: Option<Ago>)
    requires i <= |s|
    ensures r.Some? && i < |s| && s[i] == 'a' ==> r.value.quantity == 1
  {
    var t := s[i..];
    if |t| > 0 && t[0] == 'a' then
      (match UnitAgo(t[1..])
       case Some(u) => Some(Ago(1, u))
       case None => None)
    else
      var d := DigitPrefix(t);
      if d == [] then None
      else match UnitAgo(t[|d|..])
        case Some(u) => Some(Ago(DigitsValue(d), u))
        case None => None
  }

  /** `String.prototype.match` without the global flag: the leftmost match at or after `i`. */
  function FindAgo(s: string, i: nat): (r: Option<Ago>)
    requires i <= |s|
    ensures r.None? <==> forall k :: i <= k < |s| ==> AgoAt(s, k).None?
    ensures r.Some? ==> exists k :: i <= k < |s| && AgoAt(s, k) == r && forall j :: i <= j < k ==> AgoAt(s, j).None?
    decreases |s| - i
  {
    if i == |s| then None
    else if AgoAt(s, i).Some? then AgoAt(s, i)
    else FindAgo(s, i + 1)
  }

  /** The words `(day|week|month)` stand for. */
  function UnitWord(u: Unit): (w: string)
    ensures |w| >= 3 && !IsSpace(w[0])
  {
    match u
    case DayUnit => "day"
    case WeekUnit => "week"
    case MonthUnit => "month"
  }

  /** What `s?` matched. */
  function PluralS(plural: bool): string {
    if plural then "s" else ""
  }

  /** A non-empty run of white space: what `\s+` matches. */
  predicate SpaceRun(w: string) {
    |w| > 0 && IsBlank(w)
  }

  /** What `(a|\d+)` matches. */
  predicate IsQuantity(q: string) {
    q == "a" || (q != [] && AllDigits(q))
  }

  /** The number a quantity stands for: one for `a`, the decimal value of digits. */
  function QuantityValue(q: string): nat
    requires IsQuantity(q)
  {
    if q == "a" then 1 else DigitsValue(q)
  }

  /** What follows the unit word in a match: `s?\s+ago`. */
  function AgoTail(plural: bool, w2: string): string {
    PluralS(plural) + w2 + "ago"
  }

  /** The text of one match of `(a|\d+)\s+(day|week|month)s?\s+ago`, from its parts. */
  function Phrase(q: string, w1: string, u: Unit, plural: bool, w2: string): string {
    q + w1 + UnitWord(u) + AgoTail(plural, w2)
  }

  /** `t` starts with a match made of these parts. */
  predicate PhraseAtStart(t: string, q: string, w1: string, u: Unit, plural: bool, w2: string) {
    IsQuantity(q) && SpaceRun(w1) && SpaceRun(w2) && StartsWith(t, Phrase(q, w1, u, plural, w2))
  }

  lemma PhraseThen(q: string, w1: string, u: Unit, plural: bool, w2: string, z: string)
    ensures Phrase(q, w1, u, plural, w2) + z == q + (w1 + (UnitWord(u) + (AgoTail(plural, w2) + z)))
  {
  }

  /** `trimStart` removes a run of white space and stops at what follows it. */
  lemma {:induction false} TrimStartAfterSpace(w: string, rest: string)
    requires IsBlank(w)
    requires rest == [] || !IsSpace(rest[0])
    ensures TrimStart(w + rest) == rest
    decreases |w|
  {
    if |w| > 0 {
      assert (w + rest)[1..] == w[1..] + rest;
      TrimStartAfterSpace(w[1..], rest);
    }
  }

  /** The longest digit prefix stops at the first non-digit. */
  lemma {:induction false} DigitPrefixBeforeNonDigit(d: string, rest: string)
    requires AllDigits(d)
    requires rest == [] || !IsDigit(rest[0])
    ensures DigitPrefix(d + rest) == d
    decreases |d|
  {
    if |d| > 0 {
      assert (d + rest)[1..] == d[1..] + rest;
      DigitPrefixBeforeNonDigit(d[1..], rest);
    } else {
      assert d + rest == rest;
    }
  }

  lemma TailThen(plural: bool, w2: string, z: string)
    ensures AgoTail(plural, w2) + z == PluralS(plural) + (w2 + ("ago" + z))
  {
  }

  /** A string cut in two at `k`. */
  lemma SplitAt(s: string, k: nat)
    requires k <= |s|
    ensures s == s[..k] + s[k..]
  {
  }

  /** `s?` takes an `s` exactly when one was written before the white space. */
  lemma PluralThen(plural: bool, v: string)
    requires |v| > 0 && IsSpace(v[0])
    ensures StartsWith(PluralS(plural) + v, "s") == plural
    ensures (if plural then (PluralS(plural) + v)[1..] else PluralS(plural) + v) == v
  {
    if !plural {
      assert (PluralS(plural) + v)[0] == v[0];
    }
  }

  lemma AfterUnitMatches(unit: Unit, plural: bool, w2: string, z: string)
    requires SpaceRun(w2)
    ensures AfterUnit(unit, AgoTail(plural, w2) + z) == Some(unit)
  {
    TailThen(plural, w2, z);
    PluralThen(plural, w2 + ("ago" + z));
    TrimStartAfterSpace(w2, "ago" + z);
    assert ("ago" + z)[..3] == "ago";
  }

  /** Splitting off the `s` that `s?` takes. */
  lemma DropPlural(rest: string) returns (plural: bool, v: string)
    ensures plural == StartsWith(rest, "s")
    ensures v == (if plural then rest[1..] else rest)
    ensures rest == PluralS(plural) + v
  {
    plural := StartsWith(rest, "s");
    v := if plural then rest[1..] else rest;
    if plural {
      assert rest == rest[..1] + rest[1..];
    }
  }

  /** `\s+ago` at the start of `v`, read as its parts. */
  lemma SpaceThenAgo(v: string) returns (w2: string, z: string)
    requires |TrimStart(v)| < |v| && StartsWith(TrimStart(v), "ago")
    ensures SpaceRun(w2) && v == w2 + ("ago" + z)
  {
    var w := TrimStart(v);
    w2 := v[..|v| - |w|];
    z := w[3..];
    assert w == w[..3] + w[3..];
    assert v == w2 + w;
  }

  lemma AfterUnitParts(unit: Unit, rest: string) returns (plural: bool, w2: string, z: string)
    requires AfterUnit(unit, rest).Some?
    ensures SpaceRun(w2) && rest == AgoTail(plural, w2) + z
  {
    var v;
    plural, v := DropPlural(rest);
    w2, z := SpaceThenAgo(v);
    TailThen(plural, w2, z);
  }

  lemma DayWordAgo(rest: string)
    ensures WordAgo("day" + rest) == AfterUnit(DayUnit, rest)
  {
    var u := "day" + rest;
    assert u[..3] == "day" && u[3..] == rest;
  }

  lemma WeekWordAgo(rest: string)
    ensures WordAgo("week" + rest) == AfterUnit(WeekUnit, rest)
  {
    var u := "week" + rest;
    assert !StartsWith(u, "day") by {
      assert u[..3][0] == 'w';
    }
    assert u[..4] == "week" && u[4..] == rest;
  }

  lemma MonthWordAgo(rest: string)
    ensures WordAgo("month" + rest) == AfterUnit(MonthUnit, rest)
  {
    var u := "month" + rest;
    assert !StartsWith(u, "day") by {
      assert u[..3][0] == 'm';
    }
    assert !StartsWith(u, "week") by {
      assert u[..4][0] == 'm';
    }
    assert u[..5] == "month" && u[5..] == rest;
  }

  lemma WordAgoMatches(unit: Unit, rest: string)
    requires AfterUnit(unit, rest).Some?
    ensures WordAgo(UnitWord(unit) + rest) == Some(unit)
  {
    match unit
    case DayUnit => DayWordAgo(rest);
    case WeekUnit => WeekWordAgo(rest);
    case MonthUnit => MonthWordAgo(rest);
  }

  lemma UnitAgoMatches(w1: string, unit: Unit, rest: string)
    requires SpaceRun(w1) && AfterUnit(unit, rest).Some?
    ensures UnitAgo(w1 + (UnitWord(unit) + rest)) == Some(unit)
  {
    TrimStartAfterSpace(w1, UnitWord(unit) + rest);
    WordAgoMatches(unit, rest);
  }

  lemma UnitAgoParts(t: string) returns (w1: string, rest: string)
    requires UnitAgo(t).Some?
    ensures SpaceRun(w1) && t == w1 + (UnitWord(UnitAgo(t).value) + rest)
    ensures AfterUnit(UnitAgo(t).value, rest).Some?
  {
    var u := TrimStart(t);
    var word := UnitWord(UnitAgo(t).value);
    w1 := t[..|t| - |u|];
    rest := u[|word|..];
    SplitAt(u, |word|);
    SplitAt(t, |t| - |u|);
  }

  /** After the quantity, the pattern goes on with white space: the rest of
      the match is `UnitAgo`'s. */
  lemma QuantityThen(s: string, i: nat, q: string, tail: string)
    requires i <= |s| && s[i..] == q + tail && IsQuantity(q)
    requires |tail| > 0 && IsSpace(tail[0])
    ensures AgoAt(s, i) == (match UnitAgo(tail)
                            case Some(u) => Some(Ago(QuantityValue(q), u))
                            case None => None)
  {
    var t := s[i..];
    if q == "a" {
      assert t[1..] == tail;
    } else {
      assert t[0] == q[0];
      DigitPrefixBeforeNonDigit(q, tail);
      assert t[|q|..] == tail;
    }
  }

  lemma LetterQuantityParts(s: string, i: nat)
    requires i < |s| && s[i] == 'a' && AgoAt(s, i).Some?
    ensures s[i..] == "a" + s[i + 1..]
    ensures UnitAgo(s[i + 1..]) == Some(AgoAt(s, i).value.unit)
    ensures AgoAt(s, i).value.quantity == 1
  {
    assert s[i..][1..] == s[i + 1..];
  }

  lemma DigitQuantityParts(s: string, i: nat)
    requires i <= |s| && !(i < |s| && s[i] == 'a') && AgoAt(s, i).Some?
    ensures var q := DigitPrefix(s[i..]);
      q != [] && s[i..] == q + s[i..][|q|..]
      && UnitAgo(s[i..][|q|..]) == Some(AgoAt(s, i).value.unit)
      && AgoAt(s, i).value.quantity == DigitsValue(q)
  {
    SplitAt(s[i..], |DigitPrefix(s[i..])|);
  }

  /** A match read as its quantity and what follows it. */
  lemma QuantityParts(s: string, i: nat) returns (q: string, tail: string)
    requires i <= |s| && AgoAt(s, i).Some?
    ensures IsQuantity(q) && s[i..] == q + tail
    ensures UnitAgo(tail) == Some(AgoAt(s, i).value.unit)
    ensures AgoAt(s, i).value.quantity == QuantityValue(q)
  {
    if i < |s| && s[i] == 'a' {
      LetterQuantityParts(s, i);
      q, tail := "a", s[i + 1..];
    } else {
      DigitQuantityParts(s, i);
      q := DigitPrefix(s[i..]);
      tail := s[i..][|q|..];
      assert q[0] != 'a';
    }
  }

  /** Every text the pattern describes is matched, with its quantity and unit. */
  lemma AgoAtMatches(s: string, i: nat, q: string, w1: string, u: Unit, plural: bool, w2: string)
    requires i <= |s| && PhraseAtStart(s[i..], q, w1, u, plural, w2)
    ensures AgoAt(s, i) == Some(Ago(QuantityValue(q), u))
  {
    var t := s[i..];
    var p := Phrase(q, w1, u, plural, w2);
    var z := t[|p|..];
    var rest := AgoTail(plural, w2) + z;
    assert t == p + z;
    PhraseThen(q, w1, u, plural, w2, z);
    AfterUnitMatches(u, plural, w2, z);
    UnitAgoMatches(w1, u, rest);
    QuantityThen(s, i, q, w1 + (UnitWord(u) + rest));
  }

  /** Every match is a text the pattern describes. */
  lemma AgoAtParts(s: string, i: nat) returns (q: string, w1: string, plural: bool, w2: string)
    requires i <= |s| && AgoAt(s, i).Some?
    ensures PhraseAtStart(s[i..], q, w1, AgoAt(s, i).value.unit, plural, w2)
    ensures AgoAt(s, i).value.quantity == QuantityValue(q)
  {
    var u := AgoAt(s, i).value.unit;
    var tail, rest, z;
    q, tail := QuantityParts(s, i);
    w1, rest := UnitAgoParts(tail);
    plural, w2, z := AfterUnitParts(u, rest);
    PhraseThen(q, w1, u, plural, w2, z);
    assert s[i..] == Phrase(q, w1, u, plural, w2) + z;
  }

  /** `AgoAt` matches exactly the texts `(a|\d+)\s+(day|week|month)s?\s+ago`
      describes, reading `a` as one and digits as their decimal value. */
  lemma AgoAtExactly(s: string, i: nat, n: nat, u: Unit)
    requires i <= |s|
    ensures AgoAt(s, i) == Some(Ago(n, u)) <==>
      exists q, w1, plural, w2 :: PhraseAtStart(s[i..], q, w1, u, plural, w2) && QuantityValue(q) == n
  {
    if AgoAt(s, i) == Some(Ago(n, u)) {
      var q, w1, plural, w2 := AgoAtParts(s, i);
      assert PhraseAtStart(s[i..], q, w1, u, plural, w2);
    }
    if exists q, w1, plural, w2 :: PhraseAtStart(s[i..], q, w1, u, plural, w2) && QuantityValue(q) == n {
      var q, w1, plural, w2 :| PhraseAtStart(s[i..], q, w1, u, plural, w2) && QuantityValue(q) == n;
      AgoAtMatches(s, i, q, w1, u, plural, w2);
    }
  }

  /** How far back a phrase points. */
  datatype Offset = Today | DaysAgo(days: nat) | MonthsAgo(months: nat) | Unchanged

  predicate MeansNow(s: string) {
    Contains(s, "today") || Contains(s, "just now") || Contains(s, "hour")
  }

  /** The phrase classifier: "now" words first, then `yesterday`, then the
      leftmost "ago" match, with weeks counted as seven days. */
  function Classify(s: string): (o: Offset)
    ensures MeansNow(s) ==> o == Today
    ensures !MeansNow(s) && Contains(s, "yesterday") ==> o == DaysAgo(1)
    ensures (!MeansNow(s) && !Contains(s, "yesterday")) ==>
      o == AgoOffset(FindAgo(s, 0))
  {
    if MeansNow(s) then Today
    else if Contains(s, "yesterday") then DaysAgo(1)
    else AgoOffset(FindAgo(s, 0))
  }

  /** The offset an "ago" match stands for: days as they are, weeks as seven
      days each, months as calendar months; no match, no offset. */
  function AgoOffset(m: Option<Ago>): (o: Offset)
    ensures o == Unchanged <==> m.None?
    ensures m.Some? && m.value.unit == DayUnit ==> o == DaysAgo(m.value.quantity)
    ensures m.Some? && m.value.unit == WeekUnit ==> o == DaysAgo(7 * m.value.quantity)
    ensures m.Some? && m.value.unit == MonthUnit ==> o == MonthsAgo(m.value.quantity)
  {
    match m
    case None => Unchanged
    case Some(Ago(q, DayUnit)) => DaysAgo(q)
    case Some(Ago(q, WeekUnit)) => DaysAgo(7 * q)
    case Some(Ago(q, MonthUnit)) => MonthsAgo(q)
  }

  /** The date an offset points at, from `now`: `now` itself, so many days
      back, or so many calendar months back; no offset, no date. */
  function Target(o: Offset, now: Date, cal: Calendar): (r: Option<Moment>)
    ensures r.None? <==> o == Unchanged
    ensures o == Today ==> r == Some(At(now))
    ensures o.DaysAgo? ==> r == Some(MomentOf(cal.minusDays(now, o.days)))
    ensures o.MonthsAgo? ==> r == Some(MomentOf(cal.minusMonths(now, o.months)))
  {
    match o
    case Today => Some(At(now))
    case DaysAgo(n) => Some(MomentOf(cal.minusDays(now, n)))
    case MonthsAgo(n) => Some(MomentOf(cal.minusMonths(now, n)))
    case Unchanged => None
  }

  /** The date a `post_date` text points at: none for a blank text, whose
      classification is never a date anyway. */
  function PostDateTarget(p: string, now: Date, cal: Calendar): (r: Option<Moment>)
    ensures r == Target(Classify(Trim(ToLower(p))), now, cal)
    ensures r.None? <==> Classify(Trim(ToLower(p))) == Unchanged
  {
    var s := Trim(ToLower(p));
    if s == "" then
      assert Classify(s) == Unchanged by {
        assert FindAgo(s, 0).None?;
      }
      None
    else Target(Classify(s), now, cal)
  }

  /** The TypeError V8 raises when `post_date` is neither a string nor nullish. */
  const PostDateNotString := "jobDetails.post_date?.toLowerCase is not a function"

  /** `processRelativeDates`: a missing, null or blank `post_date`, or one that
      no rule recognises, leaves the record as it is; a recognised one is
      replaced, in place, by the formatted date it points at. */
  function ProcessRelativeDates(job: Fields, now: Date, cal: Calendar): (r: Result<Fields, string>)
    ensures r.Failure? <==> Lookup(job, "post_date").Some? && !Lookup(job, "post_date").value.Null?
                            && !Lookup(job, "post_date").value.Str?
    ensures r.Failure? ==> r.error == PostDateNotString
    ensures Lookup(job, "post_date").None? || Lookup(job, "post_date") == Some(Null) ==> r == Success(job)
    ensures forall p :: Lookup(job, "post_date") == Some(Str(p)) && Classify(Trim(ToLower(p))) == Unchanged ==>
      r == Success(job)
    ensures r.Success? ==> Keys(r.value) == Keys(job)
    ensures r.Success? ==> forall k :: k != "post_date" ==> Lookup(r.value, k) == Lookup(job, k)
    ensures forall p :: Lookup(job, "post_date") == Some(Str(p)) && PostDateTarget(p, now, cal).Some? ==>
      r == Success(SetField(job, "post_date", Str(FormatMoment(PostDateTarget(p, now, cal).value))))
    ensures r.Success? && r.value != job ==>
      exists m :: Lookup(r.value, "post_date") == Some(Str(FormatMoment(m)))
  {
    match Lookup(job, "post_date")
    case None => Success(job)
    case Some(Null) => Success(job)
    case Some(Str(p)) =>
      (match PostDateTarget(p, now, cal)
       case None => Success(job)
       case Some(m) => Success(SetField(job, "post_date", Str(FormatMoment(m)))))
    case Some(_) => Failure(PostDateNotString)
  }

  /** Digits and dashes only. */
  predicate DigitsAndDashes(s: string) {
    forall i :: 0 <= i < |s| ==> IsDigit(s[i]) || s[i] == '-'
  }

  predicate NoSpace(s: string) {
    forall i :: 0 <= i < |s| ==> !IsSpace(s[i])
  }

  /** No "ago" phrase starts anywhere in a string without white space: the
      unit word must follow white space. */
  lemma NoAgoAt(s: string, k: nat)
    requires NoSpace(s) && k < |s|
    ensures AgoAt(s, k).None?
  {
    var t := s[k..];
    if t[0] == 'a' {
      var u := t[1..];
      if |u| > 0 {
        assert u[0] == s[k + 1];
      }
    } else {
      var d := DigitPrefix(t);
      if d != [] {
        var rest := t[|d|..];
        if |rest| > 0 {
          assert rest[0] == s[k + |d|];
        }
      }
    }
  }

  /** A string without white space contains no "ago" phrase. */
  lemma NoAgoWithoutSpace(s: string)
    requires NoSpace(s)
    ensures FindAgo(s, 0).None?
  {
    forall k | 0 <= k < |s|
      ensures AgoAt(s, k).None?
    {
      NoAgoAt(s, k);
    }
  }

  /** A string of digits and dashes holds none of the phrase words. */
  lemma NoWordsInDigitsAndDashes(s: string)
    requires DigitsAndDashes(s)
    ensures !MeansNow(s) && !Contains(s, "yesterday")
  {
    NotContainsWithoutFirstChar(s, "today");
    NotContainsWithoutFirstChar(s, "just now");
    NotContainsWithoutFirstChar(s, "hour");
    NotContainsWithoutFirstChar(s, "yesterday");
  }

  /** A formatted date is already in lower case and has no padding. */
  lemma FormattedDateIsNormal(d: Date)
    ensures DigitsAndDashes(FormatDate(d)) && NoSpace(FormatDate(d))
    ensures Trim(ToLower(FormatDate(d))) == FormatDate(d)
  {
    var s := FormatDate(d);
    FormatDateCharacters(d);
    assert ToLower(s) == s;
    TrimUnpadded(s);
  }

  /** A formatted date is not a relative phrase. */
  lemma FormattedDateIsUnchanged(d: Date)
    ensures Classify(Trim(ToLower(FormatDate(d)))) == Unchanged
  {
    var s := FormatDate(d);
    FormattedDateIsNormal(d);
    NoWordsInDigitsAndDashes(s);
    NoAgoWithoutSpace(s);
  }

  /** The text of an Invalid Date, lower-cased: no letter of it is upper
      case except the `N`s. */
  lemma LowerInvalidDateText()
    ensures ToLower(InvalidDateText) == "nan-nan-nan"
  {
    var s := ToLower(InvalidDateText);
    forall i | 0 <= i < 11
      ensures s[i] == "nan-nan-nan"[i]
    {
      assert s[i] == LowerChar(InvalidDateText[i]);
    }
  }

  /** Only the letters of `nan` and dashes. */
  predicate NanLetters(s: string) {
    forall i :: 0 <= i < |s| ==> s[i] == 'n' || s[i] == 'a' || s[i] == '-'
  }

  /** Such a string holds no white space, so it is its own trim. */
  lemma NanLettersUnpadded(s: string)
    requires NanLetters(s)
    ensures NoSpace(s) && Trim(s) == s
  {
    forall i | 0 <= i < |s|
      ensures !IsSpace(s[i])
    {
      assert s[i] == 'n' || s[i] == 'a' || s[i] == '-';
    }
    TrimUnpadded(s);
  }

  /** Such a string holds none of the phrase words. */
  lemma NoWordsInNanLetters(s: string)
    requires NanLetters(s)
    ensures !MeansNow(s) && !Contains(s, "yesterday")
  {
    NotContainsWithoutFirstChar(s, "today");
    NotContainsWithoutFirstChar(s, "just now");
    NotContainsWithoutFirstChar(s, "hour");
    NotContainsWithoutFirstChar(s, "yesterday");
  }

  /** The text of an Invalid Date is not a relative phrase either. */
  lemma InvalidDateIsUnchanged()
    ensures Classify(Trim(ToLower(InvalidDateText))) == Unchanged
  {
    LowerInvalidDateText();
    assert NanLetters("nan-nan-nan");
    NanLettersUnpadded("nan-nan-nan");
    NoWordsInNanLetters("nan-nan-nan");
    NoAgoWithoutSpace("nan-nan-nan");
  }

  /** Whatever `Date` was written, its text is not a relative phrase. */
  lemma FormattedMomentIsUnchanged(m: Moment)
    ensures Classify(Trim(ToLower(FormatMoment(m)))) == Unchanged
  {
    match m
    case At(d) => FormattedDateIsUnchanged(d);
    case InvalidDate => InvalidDateIsUnchanged();
  }

  /** Digits, spaces and the letters of `weeks ago`. */
  predicate WeeksLetters(s: string) {
    forall i :: 0 <= i < |s| ==>
      IsDigit(s[i]) || s[i] == ' ' || s[i] == 'w' || s[i] == 'e' || s[i] == 'k'
      || s[i] == 's' || s[i] == 'a' || s[i] == 'g' || s[i] == 'o'
  }

  lemma WeeksPhraseLetters(q: nat)
    ensures WeeksLetters(NatToString(q) + " weeks ago")
  {
    var d := NatToString(q);
    var s := d + " weeks ago";
    forall i | 0 <= i < |s|
      ensures IsDigit(s[i]) || s[i] == ' ' || s[i] == 'w' || s[i] == 'e' || s[i] == 'k'
              || s[i] == 's' || s[i] == 'a' || s[i] == 'g' || s[i] == 'o'
    {
      if i >= |d| {
        assert s[i] == " weeks ago"[i - |d|];
      }
    }
  }

  /** Such a string holds none of the words the earlier rules look for. */
  lemma NoWordsInWeeksLetters(s: string)
    requires WeeksLetters(s)
    ensures !MeansNow(s) && !Contains(s, "yesterday")
  {
    NotContainsWithoutFirstChar(s, "today");
    NotContainsWithoutFirstChar(s, "just now");
    NotContainsWithoutFirstChar(s, "hour");
    NotContainsWithoutFirstChar(s, "yesterday");
  }

  lemma WeeksPhraseParts(d: string)
    ensures d + " weeks ago" == Phrase(d, " ", WeekUnit, true, " ")
  {
    assert " " + UnitWord(WeekUnit) + AgoTail(true, " ") == " weeks ago";
  }

  /** "N weeks ago" is a match at its first character, of N weeks. */
  lemma WeeksPhraseMatches(q: nat)
    ensures AgoAt(NatToString(q) + " weeks ago", 0) == Some(Ago(q, WeekUnit))
  {
    var d := NatToString(q);
    WeeksPhraseParts(d);
    assert IsBlank(" ");
    AgoAtMatches(d + " weeks ago", 0, d, " ", WeekUnit, true, " ");
    NatToStringRoundTrip(q);
  }

  /** A `post_date` that reads "N weeks ago", in any case and with any
      padding, points N times seven days back. */
  lemma WeeksCountSevenDays(p: string, now: Date, cal: Calendar, q: nat)
    requires Trim(ToLower(p)) == NatToString(q) + " weeks ago"
    ensures PostDateTarget(p, now, cal) == Some(MomentOf(cal.minusDays(now, 7 * q)))
  {
    var s := Trim(ToLower(p));
    WeeksPhraseMatches(q);
    assert FindAgo(s, 0) == AgoAt(s, 0);
    WeeksPhraseLetters(q);
    NoWordsInWeeksLetters(s);
  }

  /** Normalising a normalised record again changes nothing, whatever the day. */
  lemma ProcessIdempotent(job: Fields, now: Date, cal: Calendar, later: Date, cal2: Calendar)
    requires ProcessRelativeDates(job, now, cal).Success?
    ensures ProcessRelativeDates(ProcessRelativeDates(job, now, cal).value, later, cal2)
         == ProcessRelativeDates(job, now, cal)
  {
    var r := ProcessRelativeDates(job, now, cal).value;
    if r != job {
      var m :| Lookup(r, "post_date") == Some(Str(FormatMoment(m)));
      FormattedDateIsStable(r, m, later, cal2);
    } else {
      UnchangedIsStable(job, now, cal, later, cal2);
    }
  }

  /** A record whose `post_date` is already a formatted date is left alone. */
  lemma FormattedDateIsStable(job: Fields, m: Moment, now: Date, cal: Calendar)
    requires Lookup(job, "post_date") == Some(Str(FormatMoment(m)))
    ensures ProcessRelativeDates(job, now, cal) == Success(job)
  {
    FormattedMomentIsUnchanged(m);
  }

  /** Whether a record is left alone does not depend on the day or the calendar. */
  lemma UnchangedIsStable(job: Fields, now: Date, cal: Calendar, later: Date, cal2: Calendar)
    requires ProcessRelativeDates(job, now, cal) == Success(job)
    ensures ProcessRelativeDates(job, later, cal2) == Success(job)
  {
    var v := Lookup(job, "post_date");
    if v.Some? && v.value.Str? && PostDateTarget(v.value.s, now, cal).Some? {
      var m := PostDateTarget(v.value.s, now, cal).value;
      assert Lookup(SetField(job, "post_date", Str(FormatMoment(m))), "post_date") == Some(Str(FormatMoment(m)));
      FormattedMomentIsUnchanged(m);
      assert false;
    }
  }

  /** `referral` set to false only when missing, then `description` moved last. */
  function FinalJob(job: Fields): (r: Fields)
    ensures Lookup(r, "referral") == (if Lookup(job, "referral").None? then Some(Bool(false)) else Lookup(job, "referral"))
    ensures forall k :: k != "referral" ==> Lookup(r, k) == Lookup(job, k)
    ensures Lookup(job, "description").Some? ==> |r| > 0 && r[|r| - 1] == ("description", Lookup(job, "description").value)
    ensures Lookup(job, "referral").Some? ==> Without(r, "description") == Without(job, "description")
    ensures Lookup(job, "referral").None? ==>
      Without(r, "description") == Without(job, "description") + [("referral", Bool(false))]
  {
    var withReferral := if Lookup(job, "referral").None? then SetField(job, "referral", Bool(false)) else job;
    assert "referral"[0] != "description"[0];
    WithoutAppendOther(job, "description", "referral", Bool(false));
    MoveLast(withReferral, "description")
  }

  const EmptyDescription := "Job description text cannot be empty."
  const ParseFailed := "Failed to parse job details. "

  /** How a parse click settles: whether the service was called, the error
      shown, and the JSON text placed in the editor. */
  datatype ParseOutcome = ParseOutcome(called: bool, error: Option<string>, parsedJson: string)

  /** `handleParse`, with the service's reply (a record, or the message it
      threw) as input: a blank description is refused before any call; any
      failure is reported with the common prefix and leaves the editor empty;
      otherwise the normalised record is printed. */
  function HandleParse(description: string, reply: Result<Fields, string>, now: Date, cal: Calendar, pretty: Printer): (r: ParseOutcome)
    ensures !r.called <==> IsBlank(description)
    ensures !r.called ==> r.error == Some(EmptyDescription)
    ensures r.error.Some? ==> r.parsedJson == ""
    ensures r.called && reply.Failure? ==> r.error == Some(ParseFailed + reply.error)
    ensures r.called && reply.Success? ==>
      match ProcessRelativeDates(reply.value, now, cal)
      case Failure(m) => r.error == Some(ParseFailed + m)
      case Success(job) => r.error.None? && r.parsedJson == pretty(Object(FinalJob(job)))
  {
    if Trim(description) == "" then ParseOutcome(false, Some(EmptyDescription), "")
    else match reply
      case Failure(m) => ParseOutcome(true, Some(ParseFailed + m), "")
      case Success(raw) =>
        match ProcessRelativeDates(raw, now, cal)
        case Failure(m) => ParseOutcome(true, Some(ParseFailed + m), "")
        case Success(job) => ParseOutcome(true, None, pretty(Object(FinalJob(job))))
  }

  /** A parse that succeeds prints the normalised record: `referral` is the
      reply's own or `false`, and a recognised posting date is replaced by
      the date it points at. */
  lemma HandleParsePrintsNormalisedRecord(description: string, raw: Fields, now: Date, cal: Calendar, pretty: Printer)
    requires !IsBlank(description) && ProcessRelativeDates(raw, now, cal).Success?
    ensures var fs := FinalJob(ProcessRelativeDates(raw, now, cal).value);
      HandleParse(description, Success(raw), now, cal, pretty) == ParseOutcome(true, None, pretty(Object(fs)))
      && Lookup(fs, "referral") == (if Lookup(raw, "referral").None? then Some(Bool(false)) else Lookup(raw, "referral"))
      && forall p :: Lookup(raw, "post_date") == Some(Str(p)) && PostDateTarget(p, now, cal).Some? ==>
           Lookup(fs, "post_date") == Some(Str(FormatMoment(PostDateTarget(p, now, cal).value)))
  {
    assert "referral"[0] != "post_date"[0];
  }
}

=== FILE: json.dfy ===
/** JSON values as the application sees them after `JSON.parse`: objects keep
    their keys in insertion order, as JavaScript objects do when they are
    serialised again. Parsing and pretty-printing stay abstract: they are
    passed in as the functions `Parser` and `Printer`. */
module JsonValues {
  import opened Wrappers
  import opened Text

  datatype Json =
    | Null
    | Bool(b: bool)
    | Number(n: int)
    | Str(s: string)
    | Array(items: seq<Json>)
    | Object(fields: seq<(string, Json)>)

  type Fields = seq<(string, Json)>

  /** `JSON.parse`: `None` where it would throw a SyntaxError. */
  type Parser = string -> Option<Json>

  /** `JSON.stringify(value, null, 2)`. */
  type Printer = Json -> string

  /** JavaScript truthiness of a parsed value (`!!v`). */
  predicate Truthy(j: Json) {
    match j
    case Null => false
    case Bool(b) => b
    case Number(n) => n != 0
    case Str(s) => s != ""
    case Array(_) => true
    case Object(_) => true
  }

  /** Truthiness of a property read that may find nothing (`undefined`). */
  predicate TruthyOpt(o: Option<Json>) {
    o.Some? && Truthy(o.value)
  }

  /** The value of key `k`; objects built by `JSON.parse` have one entry per key. */
  function Lookup(fs: Fields, k: string): (r: Option<Json>)
    ensures r.Some? <==> exists i :: 0 <= i < |fs| && fs[i].0 == k
    ensures r.Some? ==> exists i :: 0 <= i < |fs| && fs[i] == (k, r.value)
  {
    if fs == [] then None
    else if fs[0].0 == k then Some(fs[0].1)
    else Lookup(fs[1..], k)
  }

  /** A property read `j.k` on a value that is not `null`: only objects have
      the keys the application reads. */
  function Prop(j: Json, k: string): Option<Json> {
    if j.Object? then Lookup(j.fields, k) else None
  }

  function Keys(fs: Fields): (ks: seq<string>)
    ensures |ks| == |fs|
    ensures forall i :: 0 <= i < |fs| ==> ks[i] == fs[i].0
  {
    seq(|fs|, i requires 0 <= i < |fs| => fs[i].0)
  }

  /** The entries whose key is not `k`, in their original order. */
  function Without(fs: Fields, k: string): (r: Fields)
    ensures |r| <= |fs|
    ensures forall i :: 0 <= i < |r| ==> r[i].0 != k
    ensures forall x :: x != k ==> Lookup(r, x) == Lookup(fs, x)
  {
    if fs == [] then []
    else if fs[0].0 == k then Without(fs[1..], k)
    else [fs[0]] + Without(fs[1..], k)
  }

  /** `obj.k = v` followed by reading the entries back: an existing key keeps
      its place and takes the new value, a new key is appended. */
  function SetField(fs: Fields, k: string, v: Json): (r: Fields)
    ensures Lookup(r, k) == Some(v)
    ensures forall x :: x != k ==> Lookup(r, x) == Lookup(fs, x)
    ensures Lookup(fs, k).Some? ==> Keys(r) == Keys(fs)
    ensures Lookup(fs, k).None? ==> r == fs + [(k, v)]
  {
    if fs == [] then [(k, v)]
    else if fs[0].0 == k then [(k, v)] + fs[1..]
    else [fs[0]] + SetField(fs[1..], k, v)
  }

  /** `const { k, ...rest } = obj; { ...rest, k }`: key `k` moves to the end,
      every other entry keeps its place relative to the others, and no value
      changes. A missing `k` stays missing (`JSON.stringify` drops `undefined`). */
  function MoveLast(fs: Fields, k: string): (r: Fields)
    ensures Lookup(fs, k).Some? ==> |r| > 0 && r[|r| - 1] == (k, Lookup(fs, k).value)
    ensures Lookup(fs, k).None? ==> r == fs
    ensures Without(r, k) == Without(fs, k)
    ensures forall x :: Lookup(r, x) == Lookup(fs, x)
  {
    match Lookup(fs, k)
    case None => fs
    case Some(v) =>
      WithoutAppend(Without(fs, k), k, v);
      LookupAppend(Without(fs, k), k, v);
      Without(fs, k) + [(k, v)]
  }

  lemma {:induction false} WithoutAppend(fs: Fields, k: string, v: Json)
    requires forall i :: 0 <= i < |fs| ==> fs[i].0 != k
    ensures Without(fs + [(k, v)], k) == fs
    decreases |fs|
  {
    if fs == [] {
    } else {
      assert (fs + [(k, v)])[1..] == fs[1..] + [(k, v)];
      WithoutAppend(fs[1..], k, v);
    }
  }

  /** Removing key `k` commutes with appending an entry under another key. */
  lemma {:induction false} WithoutAppendOther(fs: Fields, k: string, k2: string, v: Json)
    requires k2 != k
    ensures Without(fs + [(k2, v)], k) == Without(fs, k) + [(k2, v)]
    decreases |fs|
  {
    if fs == [] {
      assert [] + [(k2, v)] == [(k2, v)];
      assert [(k2, v)][1..] == [];
    } else {
      assert (fs + [(k2, v)])[1..] == fs[1..] + [(k2, v)];
      WithoutAppendOther(fs[1..], k, k2, v);
    }
  }

  lemma {:induction false} LookupAppend(fs: Fields, k: string, v: Json)
    requires forall i :: 0 <= i < |fs| ==> fs[i].0 != k
    ensures Lookup(fs + [(k, v)], k) == Some(v)
    ensures forall x :: x != k ==> Lookup(fs + [(k, v)], x) == Lookup(fs, x)
    decreases |fs|
  {
    if fs != [] {
      assert (fs + [(k, v)])[1..] == fs[1..] + [(k, v)];
      LookupAppend(fs[1..], k, v);
    }
  }

  /** `String(v)`, the conversion behind `new Error(v)` and template text. */
  function JsString(j: Json): string
    decreases j
  {
    match j
    case Null => "null"
    case Bool(b) => if b then "true" else "false"
    case Number(n) => IntToString(n)
    case Str(s) => s
    case Object(_) => "[object Object]"
    case Array(items) =>
      Join(seq(|items|, i requires 0 <= i < |items| =>
        if items[i].Null? then "" else JsString(items[i])), ",")
  }

  /** `Array.prototype.join`. */
  function Join(parts: seq<string>, sep: string): string
    decreases |parts|
  {
    if parts == [] then ""
    else if |parts| == 1 then parts[0]
    else parts[0] + sep + Join(parts[1..], sep)
  }

  /** The TypeError a property read on `null` raises (V8's wording). */
  function NullReadMessage(prop: string): string {
    "Cannot read properties of null (reading '" + prop + "')"
  }

  /** `value || fallback` converted with `String`: the message of `new Error(value || fallback)`. */
  function MessageOr(value: Option<Json>, fallback: string): (m: string)
    ensures TruthyOpt(value) && value.value.Str? ==> m == value.value.s
    ensures !TruthyOpt(value) ==> m == fallback
  {
    if TruthyOpt(value) then JsString(value.value) else fallback
  }
}

=== FILE: json_editor.dfy ===
/** The parsed-output editor: the referral checkbox that rewrites the JSON
    text, the choice between a library resume and a new upload, the gate on
    the curate button, and the decision flow of a curate click. */
module JsonEditor {
  import opened Wrappers
  import opened Text
  import opened JsonValues
  import opened Files
  import opened ApiUtils

  /** The JSON text in the editor and the referral checkbox beside it. */
  datatype Editor = Editor(json: string, hasReferral: bool)

  /** The entries an array shows as an object: its indices as keys, in order. */
  function IndexFields(items: seq<Json>): (fs: Fields)
    ensures |fs| == |items|
    ensures forall i :: 0 <= i < |items| ==> fs[i] == (IntToString(i), items[i])
  {
    seq(|items|, i requires 0 <= i < |items| => (IntToString(i), items[i]))
  }

  /** `data.referral = checked; { ...rest, description }` on the parsed text:
      objects (and arrays, seen through their indices) get the flag, then
      `description` moves last; any other value, `null` included, cannot take
      the property and the text is left alone. */
  function WithReferral(data: Json, checked: bool): (r: Option<Fields>)
    ensures r.Some? <==> data.Object? || data.Array?
    ensures data.Object? ==> r == Some(MoveLast(SetField(data.fields, "referral", Bool(checked)), "description"))
    ensures r.Some? ==> Lookup(r.value, "referral") == Some(Bool(checked))
  {
    match data
    case Object(fs) => Some(MoveLast(SetField(fs, "referral", Bool(checked)), "description"))
    case Array(items) => Some(MoveLast(SetField(IndexFields(items), "referral", Bool(checked)), "description"))
    case _ => None
  }

  /** `handleReferralChange`: the checkbox follows the click; the text is
      rewritten only when it parses to something that can take the flag. */
  function ReferralChange(e: Editor, checked: bool, parse: Parser, pretty: Printer): (r: Editor)
    ensures r.hasReferral == checked
    ensures parse(e.json).None? ==> r.json == e.json
    ensures forall fs :: parse(e.json) == Some(Object(fs)) ==>
      r.json == pretty(Object(MoveLast(SetField(fs, "referral", Bool(checked)), "description")))
  {
    match parse(e.json)
    case None => Editor(e.json, checked)
    case Some(data) =>
      match WithReferral(data, checked)
      case None => Editor(e.json, checked)
      case Some(fs) => Editor(pretty(Object(fs)), checked)
  }

  /** The toggle touches only `referral` and the place of `description`: no
      other value changes and the other keys keep their relative order. */
  lemma ReferralToggleChangesOnlyTheFlag(fs: Fields, checked: bool)
    ensures forall k :: k != "referral" ==>
      Lookup(WithReferral(Object(fs), checked).value, k) == Lookup(fs, k)
    ensures Lookup(fs, "referral").Some? ==>
      Without(WithReferral(Object(fs), checked).value, "description") == Without(SetField(fs, "referral", Bool(checked)), "description")
      && Keys(SetField(fs, "referral", Bool(checked))) == Keys(fs)
    ensures Lookup(fs, "referral").None? ==>
      Without(WithReferral(Object(fs), checked).value, "description") == Without(fs, "description") + [("referral", Bool(checked))]
  {
    assert "referral"[0] != "description"[0];
    WithoutAppendOther(fs, "description", "referral", Bool(checked));
  }

  /** The effect that keeps the checkbox in step with the text: `!!data.referral`
      when the text parses to a value whose properties can be read. */
  function SyncReferral(e: Editor, parse: Parser): (r: Editor)
    ensures r.json == e.json
    ensures parse(e.json).None? || parse(e.json) == Some(Null) ==> r == e
    ensures forall fs :: parse(e.json) == Some(Object(fs)) ==> r.hasReferral == TruthyOpt(Lookup(fs, "referral"))
  {
    match parse(e.json)
    case None => e
    case Some(Null) => e
    case Some(data) => e.(hasReferral := TruthyOpt(Prop(data, "referral")))
  }

  /** After a toggle on an object, the checkbox and the text agree, provided
      printing the new object and parsing it back gives the object. */
  lemma ToggleThenSyncAgrees(e: Editor, checked: bool, parse: Parser, pretty: Printer, fs: Fields)
    requires parse(e.json) == Some(Object(fs))
    requires var moved := MoveLast(SetField(fs, "referral", Bool(checked)), "description");
             parse(pretty(Object(moved))) == Some(Object(moved))
    ensures SyncReferral(ReferralChange(e, checked, parse, pretty), parse).hasReferral == checked
  {
  }

  /** Which resume a curation would use. */
  datatype Selection = Selection(selectedResumeId: Option<string>, showUploadUI: bool, newResumeFile: Option<File>)

  /** `handleToggleUploadUI`: showing the upload area drops the selected
      resume; hiding it drops the pending file. No control calls it. */
  function ToggleUploadUI(s: Selection): (r: Selection)
    ensures r.showUploadUI == !s.showUploadUI
    ensures r.showUploadUI ==> r.selectedResumeId.None? && r.newResumeFile == s.newResumeFile
    ensures !r.showUploadUI ==> r.newResumeFile.None? && r.selectedResumeId == s.selectedResumeId
  {
    if !s.showUploadUI then s.(showUploadUI := true, selectedResumeId := None)
    else s.(showUploadUI := false, newResumeFile := None)
  }

  /** `handleSelectResume`: the selected resume toggles off, any other is
      selected; either way the upload area hides and the pending file goes. */
  function SelectResume(s: Selection, resumeId: string): (r: Selection)
    ensures r.selectedResumeId == (if s.selectedResumeId == Some(resumeId) then None else Some(resumeId))
    ensures !r.showUploadUI && r.newResumeFile.None?
  {
    Selection(if s.selectedResumeId == Some(resumeId) then None else Some(resumeId), false, None)
  }

  /** The embedded uploader passes a file on only when it is a `.docx`. */
  function FileSelected(s: Selection, f: File): (r: Selection)
    ensures IsDocx(f) ==> r == s.(newResumeFile := Some(f))
    ensures !IsDocx(f) ==> r == s
  {
    if IsDocx(f) then s.(newResumeFile := Some(f)) else s
  }

  /** The uploader's cancel button. */
  function CancelFile(s: Selection): (r: Selection)
    ensures r.newResumeFile.None? && r.selectedResumeId == s.selectedResumeId && r.showUploadUI == s.showUploadUI
  {
    s.(newResumeFile := None)
  }

  /** The upload area and a selected library resume are never active together. */
  predicate OneSource(s: Selection) {
    !(s.showUploadUI && s.selectedResumeId.Some?)
  }

  /** Toggling the upload area and picking a resume establish `OneSource`
      from any state; choosing or cancelling a file keeps it. */
  lemma SelectionKeepsOneSource(s: Selection, resumeId: string, f: File)
    ensures OneSource(ToggleUploadUI(s)) && OneSource(SelectResume(s, resumeId))
    ensures OneSource(s) ==> OneSource(FileSelected(s, f)) && OneSource(CancelFile(s))
  {
  }

  /** Opening and closing the upload area again drops the selected resume
      and the pending file alike. */
  lemma ToggleTwiceClears(s: Selection)
    requires !s.showUploadUI
    ensures ToggleUploadUI(ToggleUploadUI(s)) == Selection(None, false, None)
  {
  }

  /** The resume id as the click handler tests it: `!selectedResumeId`. */
  predicate HasSelection(s: Selection) {
    s.selectedResumeId.Some? && s.selectedResumeId.value != ""
  }

  /** The curate button is enabled only when not submitting and there is
      a resume to curate, selected or about to be uploaded. */
  predicate CurateEnabled(isSubmitting: bool, s: Selection) {
    !isSubmitting && (HasSelection(s) || s.newResumeFile.Some?)
  }

  /** The status line under the editor. */
  datatype Status = Status(message: string, isError: bool)

  const InvalidJobJson := "The JSON is invalid. Please correct it before processing."
  const UploadFailed := "Failed to upload new resume."
  const NoResume := "No resume has been selected or uploaded."
  const CurationFailed := "The curation request failed."
  const CurationFailedPrefix := "Curation Failed: "
  const Queued := "Success! Your request has been queued."

  /** How a curate click ends: the text was not JSON, an error was thrown
      with a message, or the request was queued. */
  datatype CurateOutcome = JsonInvalid | CurationError(message: string) | QueuedOutcome

  /** The status line each ending leaves behind. */
  function StatusLine(o: CurateOutcome): (st: Status)
    ensures st.isError <==> !o.QueuedOutcome?
    ensures o.CurationError? ==> StartsWith(st.message, CurationFailedPrefix)
  {
    match o
    case JsonInvalid => Status(InvalidJobJson, true)
    case CurationError(m) => Status(CurationFailedPrefix + m, true)
    case QueuedOutcome => Status(Queued, false)
  }

  /** One curate click, settled: how it ended, the name uploaded (if an
      upload was made), and the resume id and job sent for curation (if sent). */
  datatype CurateRun = CurateRun(outcome: CurateOutcome, uploaded: Option<string>, curated: Option<(Json, Json)>)

  /** The resume id to curate, or the message of the error thrown instead.
      A null upload result throws on reading `success`. */
  function ResumeToCurate(s: Selection, uploadReply: Json): (r: Result<Json, string>)
    ensures s.newResumeFile.Some? && r.Success? ==>
      TruthyOpt(Prop(uploadReply, "success")) && Some(r.value) == Prop(uploadReply, "resume_id") && Truthy(r.value)
    ensures s.newResumeFile.Some? && uploadReply.Null? ==> r == Failure(NullReadMessage("success"))
    ensures s.newResumeFile.Some? && !uploadReply.Null? && r.Failure? ==>
      !(TruthyOpt(Prop(uploadReply, "success")) && TruthyOpt(Prop(uploadReply, "resume_id")))
      && r.error == MessageOr(Prop(uploadReply, "error"), UploadFailed)
    ensures s.newResumeFile.None? ==> (r.Success? <==> HasSelection(s))
    ensures s.newResumeFile.None? && r.Success? ==> r.value == Str(s.selectedResumeId.value)
    ensures s.newResumeFile.None? && r.Failure? ==> r.error == NoResume
  {
    if s.newResumeFile.Some? then
      if uploadReply.Null? then Failure(NullReadMessage("success"))
      else if !TruthyOpt(Prop(uploadReply, "success")) || !TruthyOpt(Prop(uploadReply, "resume_id")) then
        Failure(MessageOr(Prop(uploadReply, "error"), UploadFailed))
      else Success(Prop(uploadReply, "resume_id").value)
    else if HasSelection(s) then Success(Str(s.selectedResumeId.value))
    else Failure(NoResume)
  }

  /** `handleCurate`, with the upload and curation results as inputs: text
      that does not parse stops everything; a pending file is uploaded under
      its truncated name and its id used; otherwise the selected resume is;
      any thrown error, the null read of `success` included, ends the click
      with its message. */
  function HandleCurate(s: Selection, json: string, parse: Parser, uploadReply: Json, curateReply: Json): (r: CurateRun)
    ensures parse(json).None? <==> r.outcome.JsonInvalid?
    ensures r.outcome.JsonInvalid? ==> r.uploaded.None? && r.curated.None?
    ensures r.uploaded.Some? <==> parse(json).Some? && s.newResumeFile.Some?
    ensures r.uploaded.Some? ==> r.uploaded.value == TruncateFileName(s.newResumeFile.value.name, DefaultMaxLength)
    ensures r.curated.Some? <==> parse(json).Some? && ResumeToCurate(s, uploadReply).Success?
    ensures r.curated.Some? ==> r.curated.value == (ResumeToCurate(s, uploadReply).value, parse(json).value)
    ensures r.outcome.QueuedOutcome? <==> r.curated.Some? && !curateReply.Null? && TruthyOpt(Prop(curateReply, "success"))
    ensures parse(json).Some? && ResumeToCurate(s, uploadReply).Failure? ==>
      r.outcome == CurationError(ResumeToCurate(s, uploadReply).error)
    ensures r.curated.Some? && curateReply.Null? ==> r.outcome == CurationError(NullReadMessage("success"))
    ensures r.curated.Some? && !curateReply.Null? && !TruthyOpt(Prop(curateReply, "success")) ==>
      r.outcome == CurationError(MessageOr(Prop(curateReply, "error"), CurationFailed))
  {
    match parse(json)
    case None => CurateRun(JsonInvalid, None, None)
    case Some(job) =>
      var uploaded := if s.newResumeFile.Some? then Some(TruncateFileName(s.newResumeFile.value.name, DefaultMaxLength)) else None;
      match ResumeToCurate(s, uploadReply)
      case Failure(m) => CurateRun(CurationError(m), uploaded, None)
      case Success(id) =>
        if curateReply.Null? then CurateRun(CurationError(NullReadMessage("success")), uploaded, Some((id, job)))
        else if TruthyOpt(Prop(curateReply, "success")) then CurateRun(QueuedOutcome, uploaded, Some((id, job)))
        else CurateRun(CurationError(MessageOr(Prop(curateReply, "error"), CurationFailed)), uploaded, Some((id, job)))
  }

  /** A pending file wins over a selected resume: the upload's id is curated. */
  lemma FileTakesPrecedence(s: Selection, json: string, parse: Parser, uploadReply: Json, curateReply: Json)
    requires HasSelection(s) && s.newResumeFile.Some?
    requires HandleCurate(s, json, parse, uploadReply, curateReply).curated.Some?
    ensures Some(HandleCurate(s, json, parse, uploadReply, curateReply).curated.value.0) == Prop(uploadReply, "resume_id")
  {
  }

  /** Behind an enabled button, a click that gets past the JSON check and
      sends nothing is a failed upload: the selected-resume path always has an id. */
  lemma EnabledButtonHasAResume(isSubmitting: bool, s: Selection, json: string, parse: Parser, uploadReply: Json, curateReply: Json)
    requires CurateEnabled(isSubmitting, s)
    requires parse(json).Some? && HandleCurate(s, json, parse, uploadReply, curateReply).curated.None?
    ensures s.newResumeFile.Some?
    ensures HandleCurate(s, json, parse, uploadReply, curateReply).outcome ==
      CurationError(if uploadReply.Null? then NullReadMessage("success") else MessageOr(Prop(uploadReply, "error"), UploadFailed))
  {
  }

  /** A file chosen while a resume is selected keeps the selection: the two
      can coexist, and the curate flow settles which one is used. */
  lemma FileKeepsSelection(s: Selection, f: File)
    requires IsDocx(f)
    ensures FileSelected(s, f).selectedResumeId == s.selectedResumeId
    ensures FileSelected(s, f).newResumeFile == Some(f)
  {
  }
}

=== FILE: login.dfy ===
/** The login page: the PIN field that keeps only digits, the gate on the
    login button, what a login attempt leads to, and how the user list is
    loaded when the service is or is not configured. */
module Login {
  import opened Wrappers
  import opened Text
  import opened JsonValues

  /** `value.replace(/[^0-9]/g, '')`: the digits of the typed text, in order. */
  function PinFilter(s: string): (r: string)
    ensures AllDigits(r) && |r| <= |s|
    ensures AllDigits(s) ==> r == s
  {
    if s == [] then []
    else if IsDigit(s[0]) then [s[0]] + PinFilter(s[1..])
    else PinFilter(s[1..])
  }

  /** Filtering a pasted text piece by piece is filtering it whole. */
  lemma {:induction false} PinFilterAppend(a: string, b: string)
    ensures PinFilter(a + b) == PinFilter(a) + PinFilter(b)
    decreases |a|
  {
    if a != [] {
      assert (a + b)[0] == a[0];
      assert (a + b)[1..] == a[1..] + b;
      PinFilterAppend(a[1..], b);
    } else {
      assert a + b == b;
    }
  }

  /** The filter keeps every digit as often as it occurs and drops the rest. */
  lemma {:induction false} PinFilterKeepsDigits(s: string, c: char)
    ensures multiset(PinFilter(s))[c] == (if IsDigit(c) then multiset(s)[c] else 0)
    decreases |s|
  {
    if s != [] {
      PinFilterKeepsDigits(s[1..], c);
      assert s == [s[0]] + s[1..];
      assert multiset(s) == multiset([s[0]]) + multiset(s[1..]);
    }
  }

  /** Filtering the filtered PIN changes nothing. */
  lemma PinFilterIdempotent(s: string)
    ensures PinFilter(PinFilter(s)) == PinFilter(s)
  {
  }

  datatype Page = Page(users: seq<string>, selectedUser: string, pin: string,
                       isUsersLoading: bool, isLoginLoading: bool, error: Option<string>)

  const NoUsers := "No users found. Please check your API configuration or backend."
  const FetchUsersFailedPrefix := "Failed to fetch users: "
  const SelectUserAndPin := "Please select a user and enter a 4-digit PIN."
  const LoginRejected := "Login failed. Please check your PIN and try again."
  const LoginFailedPrefix := "Login failed: "

  /** Loading the users: the page after it and whether the service was asked. */
  datatype UsersLoad = UsersLoad(page: Page, fetched: bool)

  /** `loadUsers`, with the fetched list (already ordered) or the thrown
      message as input: no service address means no list, no error and no
      request; an empty list is reported; a failure empties the list. */
  function LoadUsers(p: Page, apiUrl: string, reply: Result<seq<string>, string>): (r: UsersLoad)
    ensures apiUrl == "" ==> r == UsersLoad(p.(users := []), false)
    ensures apiUrl != "" ==> r.fetched && !r.page.isUsersLoading
    ensures apiUrl != "" && reply.Success? ==>
      r.page.users == reply.value && (r.page.error.Some? <==> reply.value == [])
    ensures apiUrl != "" && reply.Success? && reply.value == [] ==> r.page.error == Some(NoUsers)
    ensures apiUrl != "" && reply.Failure? ==>
      r.page.users == [] && r.page.error == Some(FetchUsersFailedPrefix + reply.error)
    ensures r.page.selectedUser == p.selectedUser && r.page.pin == p.pin && r.page.isLoginLoading == p.isLoginLoading
  {
    if apiUrl == "" then UsersLoad(p.(users := []), false)
    else
      var settled := p.(isUsersLoading := false, error := None);
      match reply
      case Success(users) =>
        UsersLoad(settled.(users := users, error := if users == [] then Some(NoUsers) else None), true)
      case Failure(m) =>
        UsersLoad(settled.(users := [], error := Some(FetchUsersFailedPrefix + m)), true)
  }

  /** After a request for users, the page shows either a non-empty list or
      an error, never both and never neither. */
  lemma UsersOrError(p: Page, apiUrl: string, reply: Result<seq<string>, string>)
    requires apiUrl != ""
    ensures LoadUsers(p, apiUrl, reply).page.users != [] <==> LoadUsers(p, apiUrl, reply).page.error.None?
  {
  }

  /** The login button's `disabled`. */
  predicate LoginDisabled(p: Page) {
    p.isUsersLoading || p.isLoginLoading || p.selectedUser == "" || |p.pin| != 4
  }

  /** A login attempt: the page after it, the credentials sent, and the
      user id and name handed on when it succeeds. */
  datatype Attempt = Attempt(page: Page, call: Option<(string, string)>, loggedIn: Option<(Json, string)>)

  /** `handleLogin`, with the service's result object or the thrown message
      as input: no user or a PIN not four characters long is refused without
      a request; a result with both `success` and `Id` logs in; a null result
      throws on reading `success`, which is caught like any thrown error; any
      other result clears the PIN; a thrown error keeps it. */
  function HandleLogin(p: Page, reply: Result<Json, string>): (r: Attempt)
    ensures p.selectedUser == "" || |p.pin| != 4 ==>
      r == Attempt(p.(error := Some(SelectUserAndPin)), None, None)
    ensures r.call.Some? <==> p.selectedUser != "" && |p.pin| == 4
    ensures r.call.Some? ==> r.call.value == (p.selectedUser, p.pin) && !r.page.isLoginLoading
    ensures r.loggedIn.Some? <==>
      r.call.Some? && reply.Success? && TruthyOpt(Prop(reply.value, "success")) && TruthyOpt(Prop(reply.value, "Id"))
    ensures r.loggedIn.Some? ==>
      Some(r.loggedIn.value.0) == Prop(reply.value, "Id") && r.loggedIn.value.1 == p.selectedUser && r.page.error.None?
    ensures r.call.Some? && reply.Success? && !reply.value.Null? && r.loggedIn.None? ==>
      r.page.error == Some(LoginRejected) && r.page.pin == ""
    ensures r.call.Some? && reply == Success(Null) ==>
      r.page.error == Some(LoginFailedPrefix + NullReadMessage("success")) && r.page.pin == p.pin
    ensures r.call.Some? && reply.Failure? ==>
      r.page.error == Some(LoginFailedPrefix + reply.error) && r.page.pin == p.pin
    ensures r.page.users == p.users && r.page.selectedUser == p.selectedUser
  {
    if p.selectedUser == "" || |p.pin| != 4 then Attempt(p.(error := Some(SelectUserAndPin)), None, None)
    else
      var call := (p.selectedUser, p.pin);
      var settled := p.(isLoginLoading := false, error := None);
      match reply
      case Failure(m) => Attempt(settled.(error := Some(LoginFailedPrefix + m)), Some(call), None)
      case Success(Null) => Attempt(settled.(error := Some(LoginFailedPrefix + NullReadMessage("success"))), Some(call), None)
      case Success(v) =>
        if TruthyOpt(Prop(v, "success")) && TruthyOpt(Prop(v, "Id")) then
          Attempt(settled, Some(call), Some((Prop(v, "Id").value, p.selectedUser)))
        else Attempt(settled.(error := Some(LoginRejected), pin := ""), Some(call), None)
  }

  /** An enabled login button always sends the credentials. */
  lemma EnabledLoginSends(p: Page, reply: Result<Json, string>)
    requires !LoginDisabled(p)
    ensures HandleLogin(p, reply).call == Some((p.selectedUser, p.pin))
  {
  }

  /** A thrown error, the null read of `success` included, keeps the PIN, so
      the user can press the button again straight away. */
  lemma ThrownErrorKeepsLoginEnabled(p: Page, reply: Result<Json, string>)
    requires !LoginDisabled(p) && (reply.Failure? || reply == Success(Null))
    ensures !LoginDisabled(HandleLogin(p, reply).page)
    ensures HandleLogin(p, reply).page.pin == p.pin && HandleLogin(p, reply).loggedIn.None?
  {
  }

  /** A rejected PIN must be typed again: the button stays disabled until then. */
  lemma RejectedPinDisablesLogin(p: Page, reply: Result<Json, string>)
    requires HandleLogin(p, reply).call.Some? && reply.Success? && !reply.value.Null? && HandleLogin(p, reply).loggedIn.None?
    ensures LoginDisabled(HandleLogin(p, reply).page)
  {
  }
}

=== FILE: pipeline.dfy ===
/** The curation-pipeline panel of one request: the four stage outputs
    decoded from the server's `agents` object, everything derived from which
    of them are present (readiness, approval, the progress track, the five
    checkpoints), the one open detail panel, the approval edit buffer, and the
    approve click. */
module Pipeline {
  import opened Wrappers
  import opened Text
  import opened JsonValues
  import opened ApiUtils
  import opened RequestService

  /** `safeJsonParse`: absent, falsy and `"None"` give nothing; an object or
      array is kept as it is; anything else goes through `JSON.parse`, and
      what it rejects comes back as `{ raw: value }`. It never fails. */
  function SafeJsonParse(raw: Option<Json>, parse: Parser): (r: Option<Json>)
    ensures r.None? <==> !TruthyOpt(raw) || raw.value == Str("None")
    ensures TruthyOpt(raw) && (raw.value.Object? || raw.value.Array?) ==> r == raw
    ensures TruthyOpt(raw) && raw.value.Str? && raw.value != Str("None") ==>
      r == Some(parse(raw.value.s).GetOr(Object([("raw", raw.value)])))
  {
    match raw
    case None => None
    case Some(v) =>
      if !Truthy(v) || v == Str("None") then None
      else if v.Object? || v.Array? then Some(v)
      else match parse(JsString(v))
        case Some(j) => Some(j)
        case None => Some(Object([("raw", v)]))
  }

  /** The stage text `"{invalid"`, which `JSON.parse` rejects, is shown as `{ raw: "{invalid" }`. */
  lemma UnparsableStageKeepsRawText(parse: Parser)
    requires parse("{invalid").None?
    ensures SafeJsonParse(Some(Str("{invalid")), parse) == Some(Object([("raw", Str("{invalid"))]))
  {
  }

  /** A stage output stored as the printed text of a value comes back as
      that value, provided `JSON.parse` reads the text back. */
  lemma SafeParseOfPrinted(j: Json, parse: Parser, pretty: Printer)
    requires pretty(j) != "" && pretty(j) != "None" && parse(pretty(j)) == Some(j)
    ensures SafeJsonParse(Some(Str(pretty(j))), parse) == Some(j)
  {
  }

  datatype AgentKey = Agent2 | Agent3 | Agent4 | Agent5

  function KeyName(k: AgentKey): string {
    match k
    case Agent2 => "Agent2"
    case Agent3 => "Agent3"
    case Agent4 => "Agent4"
    case Agent5 => "Agent5"
  }

  /** Position of a stage along the pipeline, 1 to 4. */
  function Rank(k: AgentKey): nat {
    match k
    case Agent2 => 1
    case Agent3 => 2
    case Agent4 => 3
    case Agent5 => 4
  }

  /** The four decoded stage outputs. */
  datatype Stages = Stages(agent2: Option<Json>, agent3: Option<Json>, agent4: Option<Json>, agent5: Option<Json>)

  function Output(s: Stages, k: AgentKey): Option<Json> {
    match k
    case Agent2 => s.agent2
    case Agent3 => s.agent3
    case Agent4 => s.agent4
    case Agent5 => s.agent5
  }

  /** `!!agentData[k]`: the stage has a truthy output. */
  predicate Present(s: Stages, k: AgentKey) {
    TruthyOpt(Output(s, k))
  }

  /** The `agentData` memo: each stage decoded from its own key of `agents`. */
  function DecodeStages(agents: Json, parse: Parser): (s: Stages)
    ensures forall k :: Output(s, k) == SafeJsonParse(Prop(agents, KeyName(k)), parse)
  {
    Stages(SafeJsonParse(Prop(agents, "Agent2"), parse), SafeJsonParse(Prop(agents, "Agent3"), parse),
           SafeJsonParse(Prop(agents, "Agent4"), parse), SafeJsonParse(Prop(agents, "Agent5"), parse))
  }

  predicate IsReadyForApproval(s: Stages) {
    Present(s, Agent4) && !Present(s, Agent5)
  }

  predicate IsApproved(s: Stages) {
    Present(s, Agent5)
  }

  /** At most one of "ready for approval" and "approved" holds; with coaching
      output present, exactly one does. */
  lemma ReadyAndApprovedExclusive(s: Stages)
    ensures !(IsReadyForApproval(s) && IsApproved(s))
    ensures Present(s, Agent4) ==> IsReadyForApproval(s) != IsApproved(s)
  {
  }

  /** The progress track's width in tenths of a percent, by the fixed lookup
      of the source: 100%, then 87.5% for "approved", 75%, 50%, 25%, 0%.
      The 87.5% step sits behind "approved", which is "Agent5 present", a case
      the first test has already taken, so it is never the answer. The width
      is 25% per step of the highest stage present. */
  function Progress(s: Stages): (p: int)
    ensures p != 875
    ensures p == 250 * HighestRank(s)
  {
    if Present(s, Agent5) then 1000
    else if IsApproved(s) then assert false; 875
    else if Present(s, Agent4) then 750
    else if Present(s, Agent3) then 500
    else if Present(s, Agent2) then 250
    else 0
  }

  function RankIfPresent(s: Stages, k: AgentKey): nat {
    if Present(s, k) then Rank(k) else 0
  }

  function Max(a: nat, b: nat): nat {
    if a >= b then a else b
  }

  /** The rank of the furthest stage that has output, 0 when none has. */
  function HighestRank(s: Stages): nat {
    Max(Max(RankIfPresent(s, Agent2), RankIfPresent(s, Agent3)),
        Max(RankIfPresent(s, Agent4), RankIfPresent(s, Agent5)))
  }

  /** Every stage present in `s` is present in `t`. */
  predicate Grows(s: Stages, t: Stages) {
    forall k :: Present(s, k) ==> Present(t, k)
  }

  /** Progress never moves back when stage outputs are added. */
  lemma ProgressMonotone(s: Stages, t: Stages)
    requires Grows(s, t)
    ensures Progress(s) <= Progress(t)
  {
    assert Present(s, Agent2) ==> Present(t, Agent2);
    assert Present(s, Agent3) ==> Present(t, Agent3);
    assert Present(s, Agent4) ==> Present(t, Agent4);
    assert Present(s, Agent5) ==> Present(t, Agent5);
  }

  /** Analysis and recruiter view present, the rest absent: exactly 50%. */
  lemma HalfWayAtRecruiterView(s: Stages)
    requires Present(s, Agent2) && Present(s, Agent3) && !Present(s, Agent4) && !Present(s, Agent5)
    ensures Progress(s) == 500
  {
  }

  /** The five markers along the track. */
  datatype Checkpoint = Stage(key: AgentKey) | Approval

  const Checkpoints: seq<Checkpoint> := [Stage(Agent2), Stage(Agent3), Stage(Agent4), Approval, Stage(Agent5)]

  /** A stage marker is complete when its output is present; the approval
      marker when the coaching output is. */
  predicate IsComplete(c: Checkpoint, s: Stages) {
    match c
    case Stage(k) => Present(s, k)
    case Approval => Present(s, Agent4)
  }

  /** A stage's button is disabled until its output is present. */
  predicate StageButtonDisabled(k: AgentKey, s: Stages) {
    !IsComplete(Stage(k), s)
  }

  /** Clicking a stage button: a disabled button does nothing; clicking the
      open stage closes it; clicking any other opens that one alone. */
  function Disclose(active: Option<AgentKey>, k: AgentKey, s: Stages): (r: Option<AgentKey>)
    ensures StageButtonDisabled(k, s) ==> r == active
    ensures !StageButtonDisabled(k, s) ==> (r == Some(k) <==> active != Some(k))
    ensures !StageButtonDisabled(k, s) && active == Some(k) ==> r.None?
    ensures r.Some? ==> Present(s, r.value) || r == active
  {
    if StageButtonDisabled(k, s) then active
    else if active == Some(k) then None
    else Some(k)
  }

  /** Two clicks on an enabled button leave it open only if it started open. */
  lemma DiscloseTwice(active: Option<AgentKey>, k: AgentKey, s: Stages)
    requires !StageButtonDisabled(k, s)
    ensures Disclose(Disclose(active, k, s), k, s) == (if active == Some(k) then Some(k) else None)
  {
  }

  /** The approval edit buffer: the editable coaching JSON, the free-text
      instructions, and the request the buffer was last filled for. */
  datatype ApprovalEditor = ApprovalEditor(editedJson: string, customInstructions: string, populatedFor: Option<string>)

  /** New stage data arrives: the JSON buffer is always overwritten with the
      pretty-printed coaching output (or emptied), whatever was typed; the
      custom instructions are cleared only when the request differs from the
      one the buffer was filled for. */
  function OnNewData(e: ApprovalEditor, requestId: string, s: Stages, pretty: Printer): (r: ApprovalEditor)
    ensures r.editedJson == (if Present(s, Agent4) then pretty(s.agent4.value) else "")
    ensures r.customInstructions == (if e.populatedFor == Some(requestId) then e.customInstructions else "")
    ensures r.populatedFor == Some(requestId)
  {
    var filled := if Present(s, Agent4) then pretty(s.agent4.value) else "";
    if e.populatedFor != Some(requestId) then ApprovalEditor(filled, "", Some(requestId))
    else e.(editedJson := filled)
  }

  /** Last fetch wins: whatever two users typed, the same data leaves the same JSON buffer. */
  lemma LastFetchWins(e1: ApprovalEditor, e2: ApprovalEditor, requestId: string, s: Stages, pretty: Printer)
    ensures OnNewData(e1, requestId, s, pretty).editedJson == OnNewData(e2, requestId, s, pretty).editedJson
  {
  }

  /** Switching to another request discards every unsaved edit. */
  lemma SwitchingRequestDiscardsEdits(e: ApprovalEditor, requestId: string, s: Stages, pretty: Printer)
    requires e.populatedFor != Some(requestId)
    ensures OnNewData(e, requestId, s, pretty) == OnNewData(ApprovalEditor("", "", None), requestId, s, pretty)
  {
  }

  /** The panel's own state. */
  datatype Panel = Panel(active: Option<AgentKey>, isApproving: bool, error: Option<string>, editor: ApprovalEditor)

  /** The approve button is enabled only when ready and not already approving. */
  predicate ApproveEnabled(p: Panel, s: Stages) {
    !p.isApproving && IsReadyForApproval(s)
  }

  const ApprovalFailed := "Approval failed."

  /** What the panel makes of the service's answer: `null` for a refresh, or
      the error to show. A `null` reply fails on reading `success`; a reply
      whose `success` is falsy is refused with its `error` or a default. */
  function ApproveError(o: ApproveOutcome): (m: Option<string>)
    ensures o.NotSent? ==> m == Some(o.error)
    ensures o.Sent? && o.reply.Failure? ==> m == Some(FaultMessage(o.reply.error))
    ensures o.Sent? && o.reply == Success(Null) ==> m == Some(NullReadMessage("success"))
    ensures o.Sent? && o.reply.Success? && !o.reply.value.Null? && !TruthyOpt(Prop(o.reply.value, "success")) ==>
      m == Some(MessageOr(Prop(o.reply.value, "error"), ApprovalFailed))
    ensures m.None? <==> o.Sent? && o.reply.Success? && TruthyOpt(Prop(o.reply.value, "success"))
  {
    match o
    case NotSent(err) => Some(err)
    case Sent(_, Failure(f)) => Some(FaultMessage(f))
    case Sent(_, Success(data)) =>
      if data.Null? then Some(NullReadMessage("success"))
      else if TruthyOpt(Prop(data, "success")) then None
      else Some(MessageOr(Prop(data, "error"), ApprovalFailed))
  }

  /** One approve click, from the button press to the settled panel. */
  datatype ApproveClick = ApproveClick(panel: Panel, outcome: Option<ApproveOutcome>, refresh: bool)

  /** `handleApprove` behind its button: nothing happens while the button is
      disabled; otherwise the current buffer is submitted, and the panel either
      asks for a refresh or shows the error. Stage data is never touched: the
      new state comes only from the re-fetch. */
  function Approve(p: Panel, s: Stages, apiUrl: string, requestId: string, parse: Parser, resp: Response): (r: ApproveClick)
    ensures !ApproveEnabled(p, s) ==> r == ApproveClick(p, None, false)
    ensures ApproveEnabled(p, s) ==>
      r.outcome == Some(ApproveCurationStep(apiUrl, requestId, p.editor.editedJson, p.editor.customInstructions, parse, resp))
      && r.panel.editor == p.editor && r.panel.active == p.active && !r.panel.isApproving
    ensures ApproveEnabled(p, s) ==> r.panel.error == ApproveError(r.outcome.value)
    ensures r.refresh <==> ApproveEnabled(p, s) && r.panel.error.None?
    ensures ApproveEnabled(p, s) && p.editor.editedJson != "" && parse(p.editor.editedJson).None? ==>
      r.outcome.value.NotSent? && r.panel.error == Some(InvalidInstructions) && !r.refresh
  {
    if !ApproveEnabled(p, s) then ApproveClick(p, None, false)
    else
      var o := ApproveCurationStep(apiUrl, requestId, p.editor.editedJson, p.editor.customInstructions, parse, resp);
      var err := ApproveError(o);
      ApproveClick(p.(isApproving := false, error := err), Some(o), err.None?)
  }

  /** A refused approval shows the server's reason (or the default) and does
      not refresh: the request stays ready for another try. */
  lemma RefusedApprovalStays(p: Panel, s: Stages, apiUrl: string, requestId: string, parse: Parser, resp: Response)
    requires ApproveEnabled(p, s)
    requires ApproveCurationStep(apiUrl, requestId, p.editor.editedJson, p.editor.customInstructions, parse, resp).Sent?
    requires var reply := ApproveCurationStep(apiUrl, requestId, p.editor.editedJson, p.editor.customInstructions, parse, resp).reply;
      reply.Success? && reply.value.Object? && !TruthyOpt(Prop(reply.value, "success"))
    ensures var r := Approve(p, s, apiUrl, requestId, parse, resp);
      var reply := r.outcome.value.reply;
      !r.refresh && r.panel.error == Some(MessageOr(Prop(reply.value, "error"), ApprovalFailed))
      && ApproveEnabled(r.panel, s)
  {
  }

  /** Approving twice in a row from a settled panel sends the same request:
      the edit buffer is never consumed by an approval. */
  lemma ApproveKeepsBuffer(p: Panel, s: Stages, apiUrl: string, requestId: string, parse: Parser, resp: Response, resp2: Response)
    requires ApproveEnabled(p, s)
    requires !Approve(p, s, apiUrl, requestId, parse, resp).refresh
    ensures Approve(Approve(p, s, apiUrl, requestId, parse, resp).panel, s, apiUrl, requestId, parse, resp2).outcome.value.Sent?
        <==> Approve(p, s, apiUrl, requestId, parse, resp).outcome.value.Sent?
  {
  }

  /** What the dashboard actually does on a re-fetch: the details are cleared
      while loading, so the panel is unmounted and mounted again, and its
      edit buffer starts over from nothing before the new data arrives. */
  function RemountedOnNewData(e: ApprovalEditor, requestId: string, s: Stages, pretty: Printer): (r: ApprovalEditor)
    ensures r.customInstructions == ""
    ensures r.editedJson == OnNewData(e, requestId, s, pretty).editedJson
  {
    OnNewData(ApprovalEditor("", "", None), requestId, s, pretty)
  }

  /** As written, a refresh of the same request (including the one that
      follows a successful approval) loses the typed custom instructions. */
  lemma RefreshLosesInstructions(e: ApprovalEditor, requestId: string, s: Stages, pretty: Printer)
    requires e.populatedFor == Some(requestId) && e.customInstructions != ""
    ensures RemountedOnNewData(e, requestId, s, pretty).customInstructions
         != OnNewData(e, requestId, s, pretty).customInstructions
  {
  }

  /** As intended by the effect's second branch: new data for the same
      request keeps the typed instructions, and only the JSON is refreshed. */
  lemma RefreshKeepsInstructions(e: ApprovalEditor, requestId: string, s: Stages, pretty: Printer)
    requires e.populatedFor == Some(requestId)
    ensures OnNewData(e, requestId, s, pretty) == e.(editedJson := OnNewData(e, requestId, s, pretty).editedJson)
  {
  }
}

=== FILE: request_list.dfy ===
/** The request dashboard: the paged list of a user's requests, the task name
    and status badge of each row, the one expanded row with its detail fetch,
    the refresh button, and which detail view an expanded row shows. */
module RequestList {
  import opened Wrappers
  import opened Text
  import opened JsonValues
  import opened ApiUtils
  import opened RequestService
  import opened Pipeline

  /** A request's status: one of the words, or a queue position. */
  datatype Status = Word(word: string) | Position(n: int)

  datatype UserRequest = UserRequest(requestId: string, endpoint: string, status: Status, resumeName: Option<string>)

  const Tailoring := "Resume Tailoring"
  const Analysis := "Resume Analysis"

  /** `getTaskName`: tailoring and curation endpoints are "Resume Tailoring",
      then parsing and upload endpoints are "Resume Analysis"; any other
      endpoint is shown as it is. */
  function TaskName(endpoint: string): (r: string)
    ensures Contains(endpoint, "tailor") || Contains(endpoint, "curate") ==> r == Tailoring
    ensures (!Contains(endpoint, "tailor") && !Contains(endpoint, "curate")
             && (Contains(endpoint, "parse") || Contains(endpoint, "upload"))) ==> r == Analysis
    ensures r != Tailoring && r != Analysis ==> r == endpoint
    ensures r == Tailoring || r == Analysis || r == endpoint
  {
    if Contains(endpoint, "tailor") || Contains(endpoint, "curate") then Tailoring
    else if Contains(endpoint, "parse") || Contains(endpoint, "upload") then Analysis
    else endpoint
  }

  /** An endpoint that mentions both tailoring and parsing is a tailoring task:
      the tailoring test comes first. */
  lemma TailoringWinsOverAnalysis(endpoint: string)
    requires Contains(endpoint, "curate") && Contains(endpoint, "upload")
    ensures TaskName(endpoint) == Tailoring
  {
  }

  /** The pipeline view is chosen exactly for tailoring endpoints and for an
      endpoint literally named "Resume Tailoring". */
  lemma PipelineExactlyForTailoring(endpoint: string)
    ensures TaskName(endpoint) == Tailoring <==>
      Contains(endpoint, "tailor") || Contains(endpoint, "curate")
      || (endpoint == Tailoring && !Contains(endpoint, "parse") && !Contains(endpoint, "upload"))
  {
  }

  datatype Band = UpToTen | UpToTwenty | OverTwenty

  /** The badges a status can show; `QueuedBadge` carries `Number(status)`. */
  datatype Badge = FinishedBadge | PendingBadge | QueuedBadge(position: int, band: Band)

  function BandOf(n: int): (b: Band)
    ensures b == UpToTen <==> n <= 10
    ensures b == UpToTwenty <==> 10 < n <= 20
    ensures b == OverTwenty <==> n > 20
  {
    if n <= 10 then UpToTen else if n <= 20 then UpToTwenty else OverTwenty
  }

  /** `Number(status)` for the status value. */
  function StatusNumber(st: Status): Option<int> {
    match st
    case Position(n) => Some(n)
    case Word(w) => StringToNumber(w)
  }

  /** `StatusBadge`: the two words have their own badges; otherwise the
      status's numeric value is the queue position, coloured by band, and a
      status that is not a number shows nothing. */
  function StatusBadge(st: Status): (b: Option<Badge>)
    ensures st == Word("Finished") ==> b == Some(FinishedBadge)
    ensures st == Word("Pending") ==> b == Some(PendingBadge)
    ensures st.Position? ==> b == Some(QueuedBadge(st.n, BandOf(st.n)))
    ensures b.Some? && b.value.QueuedBadge? ==> StatusNumber(st) == Some(b.value.position)
    ensures st != Word("Finished") && st != Word("Pending") ==> (b.None? <==> StatusNumber(st).None?)
  {
    if st == Word("Finished") then Some(FinishedBadge)
    else if st == Word("Pending") then Some(PendingBadge)
    else match StatusNumber(st)
      case None => None
      case Some(n) => Some(QueuedBadge(n, BandOf(n)))
  }

  /** The status word "Queued" is not a number, so it shows no badge at all. */
  lemma QueuedWordShowsNothing()
    ensures StatusBadge(Word("Queued")) == None
  {
    TrimUnpadded("Queued");
    assert !IsDigit("Queued"[0]);
  }

  /** A queue position sent as decimal text shows the same badge as the number. */
  lemma PositionTextMatchesNumber(n: nat)
    ensures StatusBadge(Word(NatToString(n))) == StatusBadge(Position(n))
  {
    var s := NatToString(n);
    NatToStringRoundTrip(n);
    assert s != "Finished" by { assert IsDigit(s[0]); }
    assert s != "Pending" by { assert IsDigit(s[0]); }
  }

  /** The dashboard's state. `details` is the `agents` value of the expanded
      row's last fetched state. */
  datatype Dashboard = Dashboard(
    requests: seq<UserRequest>,
    isLoading: bool,
    error: Option<string>,
    currentPage: int,
    hasNextPage: bool,
    expanded: Option<string>,
    detailsLoading: bool,
    detailsError: Option<string>,
    details: Option<Json>)

  const ConfigureApiUrl := "Please configure your API URL in settings to view requests."

  /** The list loads by itself when the open panel has nothing and no error:
      an empty message is as falsy as none. */
  predicate AutoLoads(d: Dashboard, isOpen: bool, apiUrl: string) {
    isOpen && apiUrl != "" && |d.requests| == 0 && (d.error.None? || d.error.value == "")
  }

  /** `loadRequests(page)` from start to settle: without an API URL only the
      error is set and nothing is fetched; otherwise the expanded row closes,
      and the page either replaces the list (with "has next" exactly when it is
      full) or the list is emptied and the error shown. */
  function LoadRequests(d: Dashboard, apiUrl: string, page: int, reply: Result<seq<UserRequest>, Fault>): (r: Dashboard)
    ensures apiUrl == "" ==> r == d.(error := Some(ConfigureApiUrl))
    ensures apiUrl != "" ==> !r.isLoading && r.expanded.None?
    ensures apiUrl != "" && reply.Success? ==>
      r.requests == reply.value && r.currentPage == page && r.error.None?
      && (r.hasNextPage <==> |reply.value| == PageSize)
    ensures apiUrl != "" && reply.Failure? ==>
      r.requests == [] && r.error == Some(FaultMessage(reply.error))
      && r.currentPage == d.currentPage && r.hasNextPage == d.hasNextPage
    ensures r.detailsLoading == d.detailsLoading && r.detailsError == d.detailsError && r.details == d.details
  {
    if apiUrl == "" then d.(error := Some(ConfigureApiUrl))
    else
      var started := d.(isLoading := true, error := None, expanded := None);
      match reply
      case Success(data) =>
        started.(requests := data, currentPage := page, hasNextPage := |data| == PageSize, isLoading := false)
      case Failure(f) =>
        started.(error := Some(FaultMessage(f)), requests := [], isLoading := false)
  }

  /** After a load, the list loads by itself again exactly when the panel is
      open and either the page came back empty (paging onto an empty page, when
      the total is a multiple of ten, sends the dashboard straight back to
      page 1) or the load failed with an empty message, which leaves no error
      behind to stop the next attempt. */
  lemma AutoLoadsAfterLoad(d: Dashboard, apiUrl: string, page: int, reply: Result<seq<UserRequest>, Fault>, isOpen: bool)
    requires apiUrl != ""
    ensures AutoLoads(LoadRequests(d, apiUrl, page, reply), isOpen, apiUrl) <==>
      isOpen && (reply == Success([]) || (reply.Failure? && FaultMessage(reply.error) == ""))
  {
  }

  /** A short page means there is no next page. */
  lemma ShortPageIsLast(d: Dashboard, apiUrl: string, page: int, data: seq<UserRequest>)
    requires apiUrl != "" && |data| < PageSize
    ensures !LoadRequests(d, apiUrl, page, Success(data)).hasNextPage
  {
  }

  predicate PrevDisabled(d: Dashboard) {
    d.currentPage == 1 || d.isLoading
  }

  predicate NextDisabled(d: Dashboard) {
    !d.hasNextPage || d.isLoading
  }

  /** After a successful load of page 1, "Prev" is disabled; "Next" is enabled
      exactly when the page came back full. */
  lemma PagingButtonsAfterLoad(d: Dashboard, apiUrl: string, data: seq<UserRequest>)
    requires apiUrl != ""
    ensures PrevDisabled(LoadRequests(d, apiUrl, 1, Success(data)))
    ensures !NextDisabled(LoadRequests(d, apiUrl, 1, Success(data))) <==> |data| == PageSize
  {
  }

  /** `handleRowClick(req, force)` up to the fetch: clicking the expanded row
      collapses it unless forced; any other click expands the row and clears
      its details, their error, and marks them loading. */
  function RowClick(d: Dashboard, id: string, force: bool): (r: Dashboard)
    ensures d.expanded == Some(id) && !force ==> r == d.(expanded := None)
    ensures !(d.expanded == Some(id) && !force) ==>
      r.expanded == Some(id) && r.detailsLoading && r.detailsError.None? && r.details.None?
    ensures r.requests == d.requests && r.currentPage == d.currentPage && r.error == d.error
            && r.hasNextPage == d.hasNextPage && r.isLoading == d.isLoading
  {
    if d.expanded == Some(id) && !force then d.(expanded := None)
    else d.(expanded := Some(id), detailsLoading := true, detailsError := None, details := None)
  }

  /** The detail fetch settles: the `agents` of the state, or the error. */
  function DetailsArrived(d: Dashboard, reply: Result<Json, Fault>): (r: Dashboard)
    ensures !r.detailsLoading
    ensures reply.Success? ==> r.details == Prop(reply.value, "agents") && r.detailsError == d.detailsError
    ensures reply.Failure? ==> r.detailsError == Some(FaultMessage(reply.error)) && r.details == d.details
    ensures r.expanded == d.expanded && r.requests == d.requests
  {
    match reply
    case Success(state) => d.(details := Prop(state, "agents"), detailsLoading := false)
    case Failure(f) => d.(detailsError := Some(FaultMessage(f)), detailsLoading := false)
  }

  /** A forced click on the expanded row re-fetches it instead of closing it. */
  lemma ForcedClickKeepsRowOpen(d: Dashboard, id: string)
    requires d.expanded == Some(id)
    ensures RowClick(d, id, true).expanded == Some(id)
    ensures RowClick(d, id, false).expanded.None?
  {
  }

  /** The first request with the given id, as `Array.prototype.find` returns it. */
  function Find(rs: seq<UserRequest>, id: string): (r: Option<UserRequest>)
    ensures r.Some? ==> r.value in rs && r.value.requestId == id
    ensures r.None? <==> forall q :: q in rs ==> q.requestId != id
  {
    if rs == [] then None
    else if rs[0].requestId == id then Some(rs[0])
    else Find(rs[1..], id)
  }

  /** What the refresh button triggers. */
  datatype RefreshAction = RefetchRow(req: UserRequest) | ReloadPage(page: int) | NoAction

  /** `if (expandedRequestId)`: an expanded row with an empty id counts as none. */
  predicate HasExpandedRow(d: Dashboard) {
    d.expanded.Some? && d.expanded.value != ""
  }

  /** `handleRefresh`: with a row expanded, that row's state is fetched again
      (forced, so it stays open), or nothing happens if the row is no longer
      listed; with no row expanded, the current page is reloaded. */
  function Refresh(d: Dashboard): (a: RefreshAction)
    ensures !HasExpandedRow(d) <==> a == ReloadPage(d.currentPage)
    ensures a.RefetchRow? ==> d.expanded == Some(a.req.requestId) && a.req in d.requests
    ensures a == NoAction <==> HasExpandedRow(d) && forall q :: q in d.requests ==> q.requestId != d.expanded.value
  {
    if !HasExpandedRow(d) then ReloadPage(d.currentPage)
    else
      match Find(d.requests, d.expanded.value)
      case Some(req) => RefetchRow(req)
      case None => NoAction
  }

  /** Refreshing an expanded row re-fetches it without collapsing it, and
      marks its details as loading again. */
  lemma RefreshKeepsRowOpen(d: Dashboard)
    requires Refresh(d).RefetchRow?
    ensures RowClick(d, Refresh(d).req.requestId, true).expanded == d.expanded
    ensures RowClick(d, Refresh(d).req.requestId, true).detailsLoading
  {
  }

  /** What the non-tailoring detail view shows for the analysis output. */
  datatype AnalysisDisplay = NoDetailsAvailable | CouldNotParse | Feedback(content: Json)

  /** `RequestDetailsDisplay`: falsy details (nothing, or a parsed `null`,
      `false`, `0` or `""`) are "no details"; an object or an array with at
      least one key is shown; anything else (an empty one, or a truthy
      scalar) cannot be. */
  function ShowAnalysis(details: Option<Json>): (r: AnalysisDisplay)
    ensures !TruthyOpt(details) <==> r == NoDetailsAvailable
    ensures r.Feedback? <==> TruthyOpt(details) && ((details.value.Object? && |details.value.fields| > 0)
                                                    || (details.value.Array? && |details.value.items| > 0))
    ensures r.Feedback? ==> r.content == details.value
  {
    if !TruthyOpt(details) then NoDetailsAvailable
    else
      var j := details.value;
      if (j.Object? && |j.fields| > 0) || (j.Array? && |j.items| > 0) then Feedback(j)
      else CouldNotParse
  }

  /** Analysis text that `JSON.parse` rejects is never reported as unparsable:
      the safe parse wraps it as `{ raw: text }`, which is shown. */
  lemma UnparsableAnalysisIsShownRaw(text: string, parse: Parser)
    requires text != "" && text != "None" && parse(text).None?
    ensures ShowAnalysis(SafeJsonParse(Some(Str(text)), parse)) == Feedback(Object([("raw", Str(text))]))
  {
  }

  /** Analysis text that parses to `null`, `false`, `0` or `""` shows "no details". */
  lemma FalsyAnalysisShowsNoDetails(text: string, parse: Parser)
    requires text != "" && text != "None" && parse(text).Some? && !Truthy(parse(text).value)
    ensures ShowAnalysis(SafeJsonParse(Some(Str(text)), parse)) == NoDetailsAvailable
  {
  }

  /** "Could not parse" is shown exactly for text that parses to a truthy
      scalar or to an empty object or array. */
  lemma CouldNotParseExactly(text: string, parse: Parser)
    requires text != "" && text != "None"
    ensures ShowAnalysis(SafeJsonParse(Some(Str(text)), parse)) == CouldNotParse <==>
      (parse(text).Some? && Truthy(parse(text).value)
       && !(parse(text).value.Object? && |parse(text).value.fields| > 0)
       && !(parse(text).value.Array? && |parse(text).value.items| > 0))
  {
  }

  /** The body of an expanded row. */
  datatype DetailView = Spinner | ErrorBox(message: string) | PipelineView(stages: Stages) | AnalysisView(display: AnalysisDisplay) | Blank

  /** `detailsError && ...`: an empty error text shows nothing. */
  predicate ShowsDetailsError(d: Dashboard) {
    d.detailsError.Some? && d.detailsError.value != ""
  }

  /** The expanded row's body: a tailoring request shows the pipeline over the
      decoded stages, any other request the analysis output alone. A spinner or
      an error box takes precedence over the details (the two never coexist,
      see `DetailsSettled`). */
  function ExpandedView(d: Dashboard, req: UserRequest, parse: Parser): (v: DetailView)
    ensures v.PipelineView? <==> TruthyOpt(d.details) && !d.detailsLoading && !ShowsDetailsError(d) && TaskName(req.endpoint) == Tailoring
    ensures v.PipelineView? ==> v.stages == DecodeStages(d.details.value, parse)
    ensures v.AnalysisView? ==>
      (d.details.Some? && TaskName(req.endpoint) != Tailoring
       && v.display == ShowAnalysis(SafeJsonParse(Prop(d.details.value, "Agent2"), parse)))
    ensures (v.PipelineView? || v.AnalysisView?) <==> TruthyOpt(d.details) && !d.detailsLoading && !ShowsDetailsError(d)
    ensures v.ErrorBox? <==> !d.detailsLoading && ShowsDetailsError(d)
    ensures v.ErrorBox? ==> v.message == d.detailsError.value
    ensures d.detailsLoading <==> v == Spinner
  {
    if d.detailsLoading then Spinner
    else if ShowsDetailsError(d) then ErrorBox(d.detailsError.value)
    else if !TruthyOpt(d.details) then Blank
    else if TaskName(req.endpoint) == Tailoring then PipelineView(DecodeStages(d.details.value, parse))
    else AnalysisView(ShowAnalysis(SafeJsonParse(Prop(d.details.value, "Agent2"), parse)))
  }

  /** The spinner and the error box are never on screen together: a fetch
      clears the error when it starts loading, and settling ends the loading. */
  predicate DetailsSettled(d: Dashboard) {
    !(d.detailsLoading && d.detailsError.Some?)
  }

  /** Every step of the dashboard keeps the details consistent. */
  lemma DetailsSettledPreserved(d: Dashboard, id: string, force: bool, state: Result<Json, Fault>,
                                apiUrl: string, page: int, reply: Result<seq<UserRequest>, Fault>)
    requires DetailsSettled(d)
    ensures DetailsSettled(RowClick(d, id, force))
    ensures DetailsSettled(DetailsArrived(d, state))
    ensures DetailsSettled(LoadRequests(d, apiUrl, page, reply))
  {
  }

  /** A refetch, which starts by marking the details as loading, replaces the
      whole body with the spinner: a pipeline panel on screen is unmounted. */
  lemma RefetchUnmountsPipeline(d: Dashboard, req: UserRequest, parse: Parser)
    ensures ExpandedView(RowClick(d, req.requestId, true), req, parse) == Spinner
  {
  }
}

=== FILE: request_service.dfy ===
/** The request-service calls: the payload each builds, the validation done
    before anything is sent, and how each decodes the server's reply. */
module RequestService {
  import opened Wrappers
  import opened Text
  import opened JsonValues
  import opened ApiUtils

  /** Requests per page, sent as `n` and used for the "has next page" rule. */
  const PageSize := 10

  /** A JSON POST: the URL and the body's entries in the order they are written. */
  datatype Post = Post(url: string, body: Fields)

  const RequestsEntity := "user requests"
  const StateFetchFailed := "Failed to fetch request state details"
  const InvalidInstructions := "The provided JSON for instructions is invalid."

  /** The POST `fetchUserRequests` sends: the page asked for, always ten entries. */
  function UserRequestsCall(apiUrl: string, userId: string, pageNum: int): (c: Post)
    ensures c.url == BaseUrl(apiUrl) + "/user/fetch/request"
    ensures Keys(c.body) == ["user_id", "page_num", "n"]
    ensures Lookup(c.body, "user_id") == Some(Str(userId))
    ensures Lookup(c.body, "page_num") == Some(Number(pageNum))
    ensures Lookup(c.body, "n") == Some(Number(PageSize))
  {
    var body: Fields := [("user_id", Str(userId)), ("page_num", Number(pageNum)), ("n", Number(PageSize))];
    assert Lookup(body[2..], "n") == Some(Number(PageSize));
    Post(BaseUrl(apiUrl) + "/user/fetch/request", body)
  }

  /** `fetchUserRequests` after the reply: `data.requests || []`. Errors of the
      response pass through; a `null` body makes the property read throw. */
  function DecodeUserRequests(resp: Response, parse: Parser): (r: Result<Json, Fault>)
    ensures ProcessJsonResponse(resp, RequestsEntity, parse).Failure? ==>
      r == Failure(ProcessJsonResponse(resp, RequestsEntity, parse).error)
    ensures ProcessJsonResponse(resp, RequestsEntity, parse) == Success(Null) ==>
      r == Failure(Thrown(NullReadMessage("requests")))
    ensures forall d :: ProcessJsonResponse(resp, RequestsEntity, parse) == Success(d) && !d.Null? ==>
      (TruthyOpt(Prop(d, "requests")) ==> r == Success(Prop(d, "requests").value))
      && (!TruthyOpt(Prop(d, "requests")) ==> r == Success(Array([])))
  {
    match ProcessJsonResponse(resp, RequestsEntity, parse)
    case Failure(f) => Failure(f)
    case Success(data) =>
      if data.Null? then Failure(Thrown(NullReadMessage("requests")))
      else
        var requests := Prop(data, "requests");
        Success(if TruthyOpt(requests) then requests.value else Array([]))
  }

  /** An empty reply body decodes to no requests at all. */
  lemma EmptyReplyHasNoRequests(resp: Response, parse: Parser)
    requires resp.ok && resp.body == Success("")
    ensures DecodeUserRequests(resp, parse) == Success(Array([]))
  {
  }

  /** The POST `fetchRequestState` sends. */
  function RequestStateCall(apiUrl: string, requestId: string): (c: Post)
    ensures c.url == BaseUrl(apiUrl) + "/user/fetch/request/state"
    ensures Keys(c.body) == ["request_id"] && Lookup(c.body, "request_id") == Some(Str(requestId))
  {
    Post(BaseUrl(apiUrl) + "/user/fetch/request/state", [("request_id", Str(requestId))])
  }

  function StateEntity(requestId: string): string {
    "request state for " + requestId
  }

  /** `fetchRequestState` after the reply: only a reply whose `success` is
      truthy is returned; otherwise it throws the server's `error` text or the
      default message. */
  function DecodeRequestState(resp: Response, requestId: string, parse: Parser): (r: Result<Json, Fault>)
    ensures r.Success? ==> TruthyOpt(Prop(r.value, "success"))
    ensures r.Success? ==> ProcessJsonResponse(resp, StateEntity(requestId), parse) == Success(r.value)
    ensures ProcessJsonResponse(resp, StateEntity(requestId), parse).Failure? ==>
      r == Failure(ProcessJsonResponse(resp, StateEntity(requestId), parse).error)
    ensures ProcessJsonResponse(resp, StateEntity(requestId), parse) == Success(Null) ==>
      r == Failure(Thrown(NullReadMessage("success")))
    ensures forall d :: (ProcessJsonResponse(resp, StateEntity(requestId), parse) == Success(d)
                         && !d.Null? && !TruthyOpt(Prop(d, "success"))) ==>
      r == Failure(Thrown(MessageOr(Prop(d, "error"), StateFetchFailed)))
  {
    match ProcessJsonResponse(resp, StateEntity(requestId), parse)
    case Failure(f) => Failure(f)
    case Success(data) =>
      if data.Null? then Failure(Thrown(NullReadMessage("success")))
      else if !TruthyOpt(Prop(data, "success")) then Failure(Thrown(MessageOr(Prop(data, "error"), StateFetchFailed)))
      else Success(data)
  }

  /** A request state is returned exactly when the response holds a body
      whose `success` is truthy, and it is that body. */
  lemma RequestStateSucceedsExactly(resp: Response, requestId: string, parse: Parser)
    ensures DecodeRequestState(resp, requestId, parse).Success? <==>
      (ProcessJsonResponse(resp, StateEntity(requestId), parse).Success?
       && TruthyOpt(Prop(ProcessJsonResponse(resp, StateEntity(requestId), parse).value, "success")))
  {
  }

  /** What `approveCurationStep` does: refuse locally, or send and report the reply. */
  datatype ApproveOutcome =
    | NotSent(error: string)
    | Sent(call: Post, reply: Result<Json, Fault>)

  function ApprovalEntity(requestId: string): string {
    "curation approval for " + requestId
  }

  /** The approval body: `request_id` always; the edited instructions verbatim
      when non-empty; the custom instructions trimmed when not blank. */
  function ApprovalBody(requestId: string, edited: string, custom: string): (body: Fields)
    ensures Lookup(body, "request_id") == Some(Str(requestId))
    ensures Lookup(body, "edited_instructions") == (if edited == "" then None else Some(Str(edited)))
    ensures Lookup(body, "custom_instructions") == (if IsBlank(custom) then None else Some(Str(Trim(custom))))
  {
    OptionalPartsLookups(edited, custom);
    LookupCons("request_id", Str(requestId), OptionalParts(edited, custom), "request_id");
    LookupCons("request_id", Str(requestId), OptionalParts(edited, custom), "edited_instructions");
    LookupCons("request_id", Str(requestId), OptionalParts(edited, custom), "custom_instructions");
    [("request_id", Str(requestId))] + OptionalParts(edited, custom)
  }

  /** The entries after `request_id`, each present only when it is sent. */
  function OptionalParts(edited: string, custom: string): Fields {
    var customPart: Fields := if !IsBlank(custom) then [("custom_instructions", Str(Trim(custom)))] else [];
    if edited != "" then [("edited_instructions", Str(edited))] + customPart else customPart
  }

  lemma OptionalPartsLookups(edited: string, custom: string)
    ensures Lookup(OptionalParts(edited, custom), "request_id").None?
    ensures Lookup(OptionalParts(edited, custom), "edited_instructions") == (if edited == "" then None else Some(Str(edited)))
    ensures Lookup(OptionalParts(edited, custom), "custom_instructions") == (if IsBlank(custom) then None else Some(Str(Trim(custom))))
  {
    assert "request_id"[0] == 'r' && "edited_instructions"[0] == 'e' && "custom_instructions"[0] == 'c';
    var customPart: Fields := if !IsBlank(custom) then [("custom_instructions", Str(Trim(custom)))] else [];
    if customPart != [] {
      assert customPart == [("custom_instructions", Str(Trim(custom)))] + [];
      LookupCons("custom_instructions", Str(Trim(custom)), [], "custom_instructions");
      LookupCons("custom_instructions", Str(Trim(custom)), [], "edited_instructions");
      LookupCons("custom_instructions", Str(Trim(custom)), [], "request_id");
    }
    if edited != "" {
      LookupCons("edited_instructions", Str(edited), customPart, "edited_instructions");
      LookupCons("edited_instructions", Str(edited), customPart, "custom_instructions");
      LookupCons("edited_instructions", Str(edited), customPart, "request_id");
    }
  }

  /** A lookup in an object whose first entry is `(k, v)`. */
  lemma LookupCons(k: string, v: Json, rest: Fields, x: string)
    ensures Lookup([(k, v)] + rest, x) == if x == k then Some(v) else Lookup(rest, x)
  {
    assert ([(k, v)] + rest)[1..] == rest;
  }

  /** `approveCurationStep`: non-empty edited instructions that do not parse
      are refused with nothing sent; otherwise the body carries the request id,
      the edited text exactly as typed (never re-serialised) when there is any,
      and the trimmed custom text only when it is not blank. */
  function ApproveCurationStep(apiUrl: string, requestId: string, edited: string, custom: string,
                               parse: Parser, resp: Response): (r: ApproveOutcome)
    ensures r.NotSent? <==> edited != "" && parse(edited).None?
    ensures r.NotSent? ==> r.error == InvalidInstructions
    ensures r.Sent? ==> r.call.url == BaseUrl(apiUrl) + "/resume/curate/approve"
    ensures r.Sent? ==> r.call.body == ApprovalBody(requestId, edited, custom)
    ensures r.Sent? ==> r.reply == ProcessJsonResponse(resp, ApprovalEntity(requestId), parse)
  {
    if edited != "" && parse(edited).None? then NotSent(InvalidInstructions)
    else
      Sent(Post(BaseUrl(apiUrl) + "/resume/curate/approve", ApprovalBody(requestId, edited, custom)),
           ProcessJsonResponse(resp, ApprovalEntity(requestId), parse))
  }

  /** The approval body carries no key besides those three. */
  lemma ApprovalBodyHasNoOtherKeys(requestId: string, edited: string, custom: string)
    ensures forall k :: k != "request_id" && k != "edited_instructions" && k != "custom_instructions" ==>
      Lookup(ApprovalBody(requestId, edited, custom), k).None?
  {
  }
}

=== FILE: resume_center.dfy ===
/** The resume centre: the creation date shown on each resume, the name a
    rename submits, and the tab, rename and error state of the panel. */
module ResumeCenter {
  import opened Wrappers
  import opened Text
  import opened JsonValues
  import opened Files

  const MonthNames: seq<string> := ["Jan", "Feb", "Mar", "Apr", "May", "Jun", "Jul", "Aug", "Sep", "Oct", "Nov", "Dec"]

  /** The `YYYYMMDD` fields of a `CreatedOn` value of length 8. */
  function YearField(s: string): string requires |s| == 8 { s[..4] }
  function MonthField(s: string): string requires |s| == 8 { s[4..6] }
  function DayField(s: string): string requires |s| == 8 { s[6..] }

  /** `formattedDate` as the source writes it. A month field that `parseInt`
      cannot read makes the index NaN, which passes both range comparisons, so
      the month name is `undefined`. */
  function FormattedDateAsWritten(createdOn: Option<string>): (r: Option<string>)
    ensures createdOn.None? || |createdOn.value| != 8 ==> r.None?
    ensures createdOn.Some? && |createdOn.value| == 8 && ParseInt(MonthField(createdOn.value)).None? ==>
      r == Some("undefined " + DayField(createdOn.value) + ", " + YearField(createdOn.value))
  {
    if createdOn.None? || |createdOn.value| != 8 then None
    else
      var s := createdOn.value;
      match ParseInt(MonthField(s))
      case None => Some("undefined " + DayField(s) + ", " + YearField(s))
      case Some(m) =>
        if m - 1 < 0 || m - 1 > 11 then None
        else Some(MonthNames[m - 1] + " " + DayField(s) + ", " + YearField(s))
  }

  /** The month field `ab` slips past the range check and is shown as `undefined`. */
  lemma NonNumericMonthShowsUndefined()
    ensures FormattedDateAsWritten(Some("2024ab15")) == Some("undefined 15, 2024")
  {
    var s := "2024ab15";
    assert MonthField(s) == "ab";
    assert !IsSpace('a') && !IsDigit('a');
    assert TrimStart("ab") == "ab";
    assert DigitPrefix("ab") == [];
    assert SkipSign("ab") == "ab";
    assert ParseInt("ab").None?;
    assert DayField(s) == "15" && YearField(s) == "2024";
    assert "undefined " + "15" + ", " + "2024" == "undefined 15, 2024";
  }

  /** `formattedDate` as intended: no date unless the month field reads as a
      month number from 1 to 12; then `"<Mon> <DD>, <YYYY>"`, with the day and
      year copied from the value as they are. */
  function FormattedDate(createdOn: Option<string>): (r: Option<string>)
    ensures createdOn.None? || |createdOn.value| != 8 ==> r.None?
    ensures r.Some? ==> exists k :: (0 <= k < 12 && ParseInt(MonthField(createdOn.value)) == Some(k + 1)
      && r.value == MonthNames[k] + " " + DayField(createdOn.value) + ", " + YearField(createdOn.value))
    ensures createdOn.Some? && |createdOn.value| == 8 ==>
      (r.None? <==> ParseInt(MonthField(createdOn.value)).None?
                    || !(1 <= ParseInt(MonthField(createdOn.value)).value <= 12))
  {
    if createdOn.None? || |createdOn.value| != 8 then None
    else
      var s := createdOn.value;
      match ParseInt(MonthField(s))
      case None => None
      case Some(m) =>
        if m - 1 < 0 || m - 1 > 11 then None
        else Some(MonthNames[m - 1] + " " + DayField(s) + ", " + YearField(s))
  }

  /** The intended date never shows the word `undefined` in place of a month. */
  lemma FormattedDateNamesAMonth(createdOn: Option<string>)
    requires FormattedDate(createdOn).Some?
    ensures exists k :: 0 <= k < 12 && StartsWith(FormattedDate(createdOn).value, MonthNames[k] + " ")
  {
    var s := createdOn.value;
    var m := ParseInt(MonthField(s)).value;
    assert StartsWith(FormattedDate(createdOn).value, MonthNames[m - 1] + " ");
  }

  /** For a month field of two digits, there is no date exactly when the field
      is outside 01..12. */
  lemma DigitMonthRange(s: string)
    requires |s| == 8 && AllDigits(MonthField(s))
    ensures FormattedDate(Some(s)).None? <==> !(1 <= DigitsValue(MonthField(s)) <= 12)
  {
    ParseIntOfDigits(MonthField(s));
  }

  /** Wherever the month field reads as a number, the intended date is the one
      the source shows; they differ only on the NaN path. */
  lemma AsWrittenAgreesOnNumbers(createdOn: Option<string>)
    requires createdOn.Some? && |createdOn.value| == 8 ==> ParseInt(MonthField(createdOn.value)).Some?
    ensures FormattedDateAsWritten(createdOn) == FormattedDate(createdOn)
  {
  }

  /** The name a rename submits: trimmed, with `.docx` added unless it
      already ends with it in some letter case. */
  function FinalRenameName(name: string): (r: string)
    ensures EndsWith(ToLower(r), DocxExtension)
    ensures StartsWith(r, Trim(name))
    ensures EndsWith(ToLower(Trim(name)), DocxExtension) <==> r == Trim(name)
    ensures !EndsWith(ToLower(Trim(name)), DocxExtension) ==> r == Trim(name) + DocxExtension
  {
    var t := Trim(name);
    if EndsWith(ToLower(t), DocxExtension) then t
    else
      LowerAppendedDocx(t);
      t + DocxExtension
  }

  lemma LowerAppendedDocx(t: string)
    ensures EndsWith(ToLower(t + DocxExtension), DocxExtension)
  {
    var s := t + DocxExtension;
    var low := ToLower(s);
    forall i | 0 <= i < |DocxExtension|
      ensures low[|t| + i] == DocxExtension[i]
    {
      assert s[|t| + i] == DocxExtension[i];
    }
    assert low[|s| - |DocxExtension|..] == DocxExtension;
  }

  /** Submitting the submitted name again changes nothing. */
  lemma FinalRenameNameIdempotent(name: string)
    ensures FinalRenameName(FinalRenameName(name)) == FinalRenameName(name)
  {
    var t := Trim(name);
    var r := FinalRenameName(name);
    if r != t {
      assert r == t + DocxExtension;
      assert r[|r| - 1] == 'x';
      if t == [] {
        assert r[0] == '.';
      } else {
        assert r[0] == t[0];
      }
      TrimUnpadded(r);
    } else {
      TrimIdempotent(name);
    }
  }

  datatype Tab = DefaultTab | CuratedTab

  /** The resume being renamed and the name typed so far. */
  datatype Renaming = Renaming(id: string, name: string)

  datatype Panel = Panel(activeTab: Tab, error: Option<string>, renaming: Option<Renaming>, isRenaming: bool)

  /** `handleTabClick`: another tab cancels any rename and becomes active;
      the active tab changes nothing. */
  function TabClick(p: Panel, tab: Tab): (r: Panel)
    ensures tab == p.activeTab ==> r == p
    ensures tab != p.activeTab ==> r.activeTab == tab && r.renaming.None?
    ensures r.error == p.error && r.isRenaming == p.isRenaming
  {
    if tab != p.activeTab then p.(renaming := None, activeTab := tab) else p
  }

  /** `handleRenameClick`: the rename starts from the resume's current name. */
  function RenameClick(p: Panel, resumeId: string, currentName: string): (r: Panel)
    ensures r.renaming == Some(Renaming(resumeId, currentName))
    ensures r.activeTab == p.activeTab && r.error == p.error && r.isRenaming == p.isRenaming
  {
    p.(renaming := Some(Renaming(resumeId, currentName)))
  }

  /** `handleRenameCancel`: clears the rename and the error alike. */
  function RenameCancel(p: Panel): (r: Panel)
    ensures r.renaming.None? && r.error.None?
    ensures r.activeTab == p.activeTab && r.isRenaming == p.isRenaming
  {
    p.(renaming := None, error := None)
  }

  const EmptyName := "Resume name cannot be empty."
  const RenameFailed := "An unexpected error occurred during rename."

  /** A rename submission: the panel after it, the rename call made (resume
      id and final name), and whether the list reloads. */
  datatype RenameSubmission = RenameSubmission(panel: Panel, call: Option<(string, string)>, reload: bool)

  /** `handleRenameSubmit`, with the service's result object as input: a
      blank name is refused without a call; otherwise the final name is sent,
      and success ends the rename and reloads while failure keeps it open with
      the error shown. A null result makes reading `success` throw once the
      spinner is off: the rename stays open, with no error and no reload. */
  function RenameSubmit(p: Panel, reply: Json): (r: RenameSubmission)
    ensures p.renaming.None? || IsBlank(p.renaming.value.name) ==>
      r == RenameSubmission(p.(error := Some(EmptyName)), None, false)
    ensures r.call.Some? <==> p.renaming.Some? && !IsBlank(p.renaming.value.name)
    ensures r.call.Some? ==> r.call.value == (p.renaming.value.id, FinalRenameName(p.renaming.value.name))
    ensures r.call.Some? ==> !r.panel.isRenaming && r.panel.activeTab == p.activeTab
    ensures r.reload <==> r.call.Some? && !reply.Null? && TruthyOpt(Prop(reply, "success"))
    ensures r.reload ==> r.panel.renaming.None? && r.panel.error.None?
    ensures r.call.Some? && reply.Null? ==> r.panel.renaming == p.renaming && r.panel.error.None?
    ensures r.call.Some? && !reply.Null? && !TruthyOpt(Prop(reply, "success")) ==>
      r.panel.renaming == p.renaming && r.panel.error == Some(MessageOr(Prop(reply, "error"), RenameFailed))
  {
    if p.renaming.None? || Trim(p.renaming.value.name) == "" then
      RenameSubmission(p.(error := Some(EmptyName)), None, false)
    else
      var call := (p.renaming.value.id, FinalRenameName(p.renaming.value.name));
      var settled := p.(isRenaming := false, error := None);
      if reply.Null? then RenameSubmission(settled, Some(call), false)
      else if TruthyOpt(Prop(reply, "success")) then RenameSubmission(settled.(renaming := None), Some(call), true)
      else RenameSubmission(settled.(error := Some(MessageOr(Prop(reply, "error"), RenameFailed))), Some(call), false)
  }

  /** Every name a rename sends ends in `.docx` in some letter case. */
  lemma SubmittedNamesAreDocx(p: Panel, reply: Json)
    requires RenameSubmit(p, reply).call.Some?
    ensures EndsWith(ToLower(RenameSubmit(p, reply).call.value.1), DocxExtension)
  {
  }
}

=== FILE: text.dfy ===
/** The JavaScript string built-ins the application relies on, with their
    JavaScript meaning: `trim`, `toLowerCase`, `startsWith`, `endsWith`,
    `includes`, `String(n)`, `parseInt(s, 10)` and `Number(s)`. */
module Text {
  import opened Wrappers

  /** The code points `String.prototype.trim` removes and the regular-expression
      class `\s` matches: ECMAScript WhiteSpace and LineTerminator. */
  predicate IsSpace(c: char) {
    var n := c as int;
    n == 0x09 || n == 0x0A || n == 0x0B || n == 0x0C || n == 0x0D || n == 0x20
    || n == 0xA0 || n == 0x1680 || (0x2000 <= n <= 0x200A) || n == 0x2028
    || n == 0x2029 || n == 0x202F || n == 0x205F || n == 0x3000 || n == 0xFEFF
  }

  /** The regular-expression classes `\d` and `[0-9]`: ASCII digits only. */
  predicate IsDigit(c: char) {
    '0' <= c <= '9'
  }

  predicate AllDigits(s: string) {
    forall i :: 0 <= i < |s| ==> IsDigit(s[i])
  }

  /** A string `!s.trim()` calls empty. */
  predicate IsBlank(s: string) {
    forall i :: 0 <= i < |s| ==> IsSpace(s[i])
  }

  function LowerChar(c: char): char {
    if 'A' <= c <= 'Z' then (c as int + 32) as char else c
  }

  /** `toLowerCase`, on the ASCII letters. */
  function ToLower(s: string): (r: string)
    ensures |r| == |s|
    ensures forall i :: 0 <= i < |s| ==> r[i] == LowerChar(s[i])
  {
    seq(|s|, i requires 0 <= i < |s| => LowerChar(s[i]))
  }

  function TrimStart(s: string): (r: string)
    ensures |r| <= |s| && r == s[|s| - |r|..]
    ensures forall i :: 0 <= i < |s| - |r| ==> IsSpace(s[i])
    ensures r == [] || !IsSpace(r[0])
    decreases |s|
  {
    if |s| > 0 && IsSpace(s[0]) then TrimStart(s[1..]) else s
  }

  function TrimEnd(s: string): (r: string)
    ensures |r| <= |s| && r == s[..|r|]
    ensures forall i :: |r| <= i < |s| ==> IsSpace(s[i])
    ensures r == [] || !IsSpace(r[|r| - 1])
    decreases |s|
  {
    if |s| > 0 && IsSpace(s[|s| - 1]) then TrimEnd(s[..|s| - 1]) else s
  }

  /** `String.prototype.trim`: the longest slice of `s` that neither starts
      nor ends with white space; empty exactly when `s` is blank. */
  function Trim(s: string): (r: string)
    ensures |r| <= |TrimStart(s)| && r == TrimStart(s)[..|r|]
    ensures forall i :: |r| <= i < |TrimStart(s)| ==> IsSpace(TrimStart(s)[i])
    ensures r == [] || (!IsSpace(r[0]) && !IsSpace(r[|r| - 1]))
    ensures r == [] <==> IsBlank(s)
  {
    TrimEnd(TrimStart(s))
  }

  /** A string that neither starts nor ends with white space is its own trim. */
  lemma TrimUnpadded(s: string)
    requires s == [] || (!IsSpace(s[0]) && !IsSpace(s[|s| - 1]))
    ensures Trim(s) == s
  {
  }

  lemma TrimIdempotent(s: string)
    ensures Trim(Trim(s)) == Trim(s)
  {
    TrimUnpadded(Trim(s));
  }

  predicate StartsWith(s: string, p: string) {
    |p| <= |s| && s[..|p|] == p
  }

  predicate EndsWith(s: string, p: string) {
    |p| <= |s| && s[|s| - |p|..] == p
  }

  /** `String.prototype.includes`. */
  predicate Contains(s: string, p: string)
    decreases |s|
  {
    StartsWith(s, p) || (|s| > 0 && Contains(s[1..], p))
  }

  /** A string none of whose characters is the first character of `p` does not contain `p`. */
  lemma {:induction false} NotContainsWithoutFirstChar(s: string, p: string)
    requires |p| > 0
    requires forall i :: 0 <= i < |s| ==> s[i] != p[0]
    ensures !Contains(s, p)
    decreases |s|
  {
    if |s| > 0 {
      assert !StartsWith(s, p) by {
        if |p| <= |s| {
          assert s[..|p|][0] == s[0];
        }
      }
      NotContainsWithoutFirstChar(s[1..], p);
    }
  }

  function DigitChar(d: nat): (c: char)
    requires d < 10
    ensures IsDigit(c)
  {
    ('0' as int + d) as char
  }

  function DigitValue(c: char): (d: nat)
    requires IsDigit(c)
    ensures d < 10 && DigitChar(d) == c
  {
    c as int - '0' as int
  }

  /** The value of a run of decimal digits. */
  function DigitsValue(s: string): nat
    requires AllDigits(s)
    decreases |s|
  {
    if s == [] then 0 else 10 * DigitsValue(s[..|s| - 1]) + DigitValue(s[|s| - 1])
  }

  /** `String(n)` for a non-negative integer: decimal digits, no leading zero. */
  function NatToString(n: nat): (r: string)
    ensures |r| >= 1 && AllDigits(r)
    ensures n < 10 <==> |r| == 1
    ensures |r| > 1 ==> r[0] != '0'
    decreases n
  {
    if n < 10 then [DigitChar(n)] else NatToString(n / 10) + [DigitChar(n % 10)]
  }

  /** `String(n)` for an integer. */
  function IntToString(n: int): (r: string)
    ensures |r| >= 1
    ensures r[0] == '-' <==> n < 0
  {
    if n < 0 then "-" + NatToString(-n) else NatToString(n)
  }

  lemma {:induction false} NatToStringRoundTrip(n: nat)
    ensures DigitsValue(NatToString(n)) == n
    decreases n
  {
    if n >= 10 {
      NatToStringRoundTrip(n / 10);
      var s := NatToString(n);
      assert s[..|s| - 1] == NatToString(n / 10);
    }
  }

  /** The longest prefix of `s` made of digits. */
  function DigitPrefix(s: string): (r: string)
    ensures AllDigits(r) && StartsWith(s, r)
    ensures |r| < |s| ==> !IsDigit(s[|r|])
    decreases |s|
  {
    if |s| > 0 && IsDigit(s[0]) then [s[0]] + DigitPrefix(s[1..]) else []
  }

  lemma {:induction false} DigitPrefixOfDigits(s: string)
    requires AllDigits(s)
    ensures DigitPrefix(s) == s
    decreases |s|
  {
    if |s| > 0 {
      DigitPrefixOfDigits(s[1..]);
    }
  }

  /** `parseInt(s, 10)`: leading white space, an optional sign, then the
      longest run of digits; `None` stands for NaN (no digit at all). */
  function ParseInt(s: string): (r: Option<int>)
    ensures r.None? <==> DigitPrefix(SkipSign(TrimStart(s))) == []
  {
    var t := TrimStart(s);
    var d := DigitPrefix(SkipSign(t));
    if d == [] then None
    else if |t| > 0 && t[0] == '-' then Some(-(DigitsValue(d) as int))
    else Some(DigitsValue(d))
  }

  function SkipSign(t: string): string {
    if |t| > 0 && (t[0] == '-' || t[0] == '+') then t[1..] else t
  }

  /** `parseInt` reads back what `String` wrote. */
  lemma ParseIntRoundTrip(n: int)
    ensures ParseInt(IntToString(n)) == Some(n)
  {
    var s := IntToString(n);
    var digits := if n < 0 then NatToString(-n) else NatToString(n);
    assert TrimStart(s) == s;
    assert SkipSign(s) == digits;
    DigitPrefixOfDigits(digits);
    NatToStringRoundTrip(if n < 0 then -n else n);
  }

  /** `parseInt` of a plain run of digits is its decimal value. */
  lemma ParseIntOfDigits(s: string)
    requires s != [] && AllDigits(s)
    ensures ParseInt(s) == Some(DigitsValue(s))
  {
    assert !IsSpace(s[0]);
    assert TrimStart(s) == s;
    DigitPrefixOfDigits(s);
  }

  /** `Number(s)` on the integer forms: a blank string is 0, an optional sign
      followed by decimal digits is that integer, anything else is NaN (`None`). */
  function StringToNumber(s: string): (r: Option<int>)
    ensures IsBlank(s) ==> r == Some(0)
    ensures AllDigits(s) && s != [] ==> r == Some(DigitsValue(s))
  {
    var t := Trim(s);
    if t == [] then Some(0)
    else
      var u := SkipSign(t);
      if u != [] && AllDigits(u) then
        Some(if t[0] == '-' then -(DigitsValue(u) as int) else DigitsValue(u))
      else None
  }
}

=== FILE: upload_modal.dfy ===
/** The upload dialog: which files it takes, the name it fills in, when it
    lets the user submit, what a submission sends, and what closing and
    resetting do. Update mode is the dialog opened for an existing resume. */
module UploadModal {
  import opened Wrappers
  import opened Text
  import opened JsonValues
  import opened Files
  import opened ApiUtils

  /** The resume the dialog replaces, when it was opened to update one. */
  datatype ResumeRef = ResumeRef(resumeId: string, name: string)

  datatype Modal = Modal(file: Option<File>, resumeName: string, isLoading: bool, error: Option<string>, success: Option<string>)

  const InvalidFileType := "Invalid file type. Please upload a .docx file."
  const MissingFileOrName := "Please provide a file and a name for the resume."
  const UpdatedMessage := "Resume updated successfully!"
  const UploadedMessage := "Resume uploaded successfully!"
  const UnknownUploadError := "An unknown error occurred during upload."

  /** `resetState`: the dialog as first opened. */
  function Reset(m: Modal): (r: Modal)
    ensures r.file.None? && r.resumeName == "" && !r.isLoading && r.error.None? && r.success.None?
  {
    Modal(None, "", false, None, None)
  }

  /** Whatever was on the dialog, a reset leaves nothing of it behind. */
  lemma ResetForgets(m: Modal, n: Modal)
    ensures Reset(m) == Reset(n)
  {
  }

  /** The open/close effect: opening for an update fills in the resume's
      current name; closing resets the dialog (after a delay not modelled). */
  function OpenChanged(m: Modal, isOpen: bool, toUpdate: Option<ResumeRef>): (r: Modal)
    ensures !isOpen ==> r == Reset(m)
    ensures isOpen && toUpdate.Some? ==> r == m.(resumeName := toUpdate.value.name)
    ensures isOpen && toUpdate.None? ==> r == m
  {
    if isOpen then
      if toUpdate.Some? then m.(resumeName := toUpdate.value.name) else m
    else Reset(m)
  }

  /** `handleClose`: whether the dialog asks to be closed; never mid-upload. */
  function Close(m: Modal): (closes: bool)
    ensures closes <==> !m.isLoading
  {
    !m.isLoading
  }

  /** `handleFileSelect`: messages are cleared first; a `.docx` file is taken
      (and names the resume unless updating), any other file is refused
      with an error and drops the current file; no file changes nothing else. */
  function FileSelect(m: Modal, selected: Option<File>, updateMode: bool): (r: Modal)
    ensures r.success.None? && r.isLoading == m.isLoading
    ensures selected.None? ==> r == m.(error := None, success := None)
    ensures selected.Some? ==> (r.file == Some(selected.value) <==> IsDocx(selected.value))
    ensures selected.Some? && !IsDocx(selected.value) ==>
      r.file.None? && r.error == Some(InvalidFileType) && r.resumeName == m.resumeName
    ensures selected.Some? && IsDocx(selected.value) ==>
      r.error.None? && r.resumeName == (if updateMode then m.resumeName else selected.value.name)
  {
    var cleared := m.(error := None, success := None);
    match selected
    case None => cleared
    case Some(f) =>
      if IsDocx(f) then cleared.(file := Some(f), resumeName := if updateMode then m.resumeName else f.name)
      else cleared.(error := Some(InvalidFileType), file := None)
  }

  /** In update mode the name typed so far survives any file choice. */
  lemma UpdateModeKeepsName(m: Modal, selected: Option<File>)
    ensures FileSelect(m, selected, true).resumeName == m.resumeName
  {
  }

  /** The submit button's `disabled`. */
  predicate SubmitDisabled(m: Modal) {
    m.file.None? || m.isLoading || IsBlank(m.resumeName)
  }

  /** The upload a submission makes: the file, the name sent, and the
      `ResumeId` form field, present only when updating a resume with an id. */
  datatype UploadCall = UploadCall(file: File, fileName: string, resumeId: Option<string>)

  /** A submission: the dialog after it, the upload made, and whether the
      success callbacks and the delayed close follow. */
  datatype Submission = Submission(modal: Modal, call: Option<UploadCall>, succeeded: bool)

  /** `handleSubmit`, with the service's result object as input: no file or a
      blank name is refused without an upload; otherwise the truncated name
      is uploaded and the reply's message, or a default, is shown. A null
      result makes reading `success` throw after loading has ended, so the
      dialog is left settled with no message and nothing follows. */
  function Submit(m: Modal, toUpdate: Option<ResumeRef>, reply: Json): (r: Submission)
    ensures m.file.None? || IsBlank(m.resumeName) ==>
      r == Submission(m.(error := Some(MissingFileOrName)), None, false)
    ensures r.call.Some? <==> m.file.Some? && !IsBlank(m.resumeName)
    ensures r.call.Some? ==>
      (r.call.value.file == m.file.value && r.call.value.fileName == TruncateFileName(m.resumeName, DefaultMaxLength))
    ensures r.call.Some? ==>
      (r.call.value.resumeId.Some? <==> toUpdate.Some? && toUpdate.value.resumeId != "")
    ensures r.call.Some? && r.call.value.resumeId.Some? ==> r.call.value.resumeId.value == toUpdate.value.resumeId
    ensures r.call.Some? ==> !r.modal.isLoading && r.modal.file == m.file && r.modal.resumeName == m.resumeName
    ensures r.succeeded <==> r.call.Some? && !reply.Null? && TruthyOpt(Prop(reply, "success"))
    ensures r.succeeded ==>
      (r.modal.error.None? &&
       r.modal.success == Some(MessageOr(Prop(reply, "message"), if toUpdate.Some? then UpdatedMessage else UploadedMessage)))
    ensures r.call.Some? && reply.Null? ==> r.modal.error.None? && r.modal.success.None?
    ensures r.call.Some? && !reply.Null? && !r.succeeded ==>
      r.modal.success.None? && r.modal.error == Some(MessageOr(Prop(reply, "error"), UnknownUploadError))
  {
    if m.file.None? || Trim(m.resumeName) == "" then
      Submission(m.(error := Some(MissingFileOrName)), None, false)
    else
      var resumeId := if toUpdate.Some? && toUpdate.value.resumeId != "" then Some(toUpdate.value.resumeId) else None;
      var call := UploadCall(m.file.value, TruncateFileName(m.resumeName, DefaultMaxLength), resumeId);
      var settled := m.(isLoading := false, error := None, success := None);
      if reply.Null? then
        Submission(settled, Some(call), false)
      else if TruthyOpt(Prop(reply, "success")) then
        var fallback := if toUpdate.Some? then UpdatedMessage else UploadedMessage;
        Submission(settled.(success := Some(MessageOr(Prop(reply, "message"), fallback))), Some(call), true)
      else
        Submission(settled.(error := Some(MessageOr(Prop(reply, "error"), UnknownUploadError))), Some(call), false)
  }

  /** An enabled button always leads to an upload: the gate and the handler's
      own check agree. */
  lemma EnabledSubmitUploads(m: Modal, toUpdate: Option<ResumeRef>, reply: Json)
    requires !SubmitDisabled(m)
    ensures Submit(m, toUpdate, reply).call.Some?
  {
  }

  /** Every uploaded name ends in `.docx`, whatever was typed. */
  lemma UploadedNamesAreDocx(m: Modal, toUpdate: Option<ResumeRef>, reply: Json)
    requires Submit(m, toUpdate, reply).call.Some?
    ensures EndsWith(Submit(m, toUpdate, reply).call.value.fileName, DocxExtension)
  {
  }

  /** After a successful upload the dialog is settled, so the delayed close
      that follows is honoured. */
  lemma SuccessThenCloses(m: Modal, toUpdate: Option<ResumeRef>, reply: Json)
    requires Submit(m, toUpdate, reply).succeeded
    ensures Close(Submit(m, toUpdate, reply).modal)
  {
  }
}

=== FILE: wrappers.dfy ===
/** Option and Result, the failure-carrying values every module below returns
    where the application uses `null`, `undefined` or a thrown error. */
module Wrappers {

  datatype Option<+T> = None | Some(value: T) {

    /** The value, or `default` when absent (the `x ?? default` idiom). */
    function GetOr(default: T): T {
      match this
      case Some(v) => v
      case None => default
    }
  }

  datatype Result<+R, +E> = Success(value: R) | Failure(error: E)
}
